=== FILE: README.md ===
# Email delivery queue: a Dafny model

This project models the durable email delivery queue of a small blog server, together with its users:

- **the queue store** (`email_delivery_queue`): push, peek, pop and deprioritise, with the exponential backoff of 60·2^n seconds;
- **the delivery worker**: one transactional attempt (`try_execute_task`), and the endless loop that maps each attempt's outcome to a sleep;
- **the blog-post dispatcher**, the second producer of queue rows. It reads the files a commit added under `blog/`, then in one transaction enqueues one announcement per confirmed subscriber for every post not yet registered in `blog_posts`, and registers the post;
- **the email templates**: the unsubscribe link, and the HTML and plain-text footers wrapped around a message.

## How the pieces fit

Module `EmailDeliveryQueue` holds the database:

- A `Database` object holds the committed tables: the queue as a map from row id to row, `subscriptions`, and `blog_posts`. It also holds the set of queue rows that other, concurrent transactions have locked.
- A `Transaction` works on its own copy of the tables it writes. `Commit` publishes the copy. A transaction dropped without commit changes nothing, which is what Postgres does on rollback, and what a panic or an early `?` return comes to.
- The queue operations are methods on a transaction. `PeekTask` picks *some* claimable row with `:|`.

Module `DeliveryWorker` covers the worker:

- `TryExecuteTask` is a method whose contract ties its outcome and the new queue table to the function `Attempt`. The lemmas about single attempts are stated about `Attempt`.
- `RunWorker` runs a finite prefix of the endless loop, driven by one environment input per iteration. Its contract ties the run to `Replay` and to the sleep table `NextStep`.

Module `BlogPostDispatcher` covers the dispatcher:

- The file list, slug, link and message bodies are functions.
- The `INSERT … SELECT` fan-out is the function `InsertAnnouncements`.
- The `for` loop over the files is the method `EnqueueAnnouncements`, whose body is one call to `EnqueuePost` per file. Its invariant says that the rows added so far are exactly one announcement per confirmed subscriber and newly registered post.
- `DispatchNewPosts` is the dispatcher's `main` after the git call.

Modules `EmailTemplate`, `Uuids` and `RustStr` are pure:
- `EmailTemplate` holds the footers and the unsubscribe link.
- `Uuids` prints a UUID in its hyphenated lowercase form and parses it back.
- `RustStr` holds the `str` operations the dispatcher uses: `split`, `strip_prefix` and `strip_suffix`.

Behaviour of the code that the model keeps as written:

- **Claiming.** `peek_task` has no condition on `send_after` and no `ORDER BY`. A just-deferred row can be claimed again at once (`EmailDeliveryQueue.DeferredRowStillClaimable`). The model does not claim the oldest eligible row, and does not gate claims on eligibility.
- **Panics in the worker.** The backoff arithmetic of `deprioritise_task` panics at some retry counts: `Duration::seconds` rejects 60·2^48 and more, and `Utc::now() + …` panics past chrono's last representable instant. The worker models such a panic as a `Panicked` outcome that ends the loop and leaves the queue unchanged (in the running program the panic ends the worker task, which also makes `main` return and stops the HTTP server, see src/bin/dynamic.rs:66, 106-109), rather than as a precondition that would exclude reachable states.
- **Retries are bounded.** Deferring a row whose count is 37 already panics at any instant after 1970, because 60·2^37 seconds passes chrono's last representable instant (`EmailDeliveryQueue.SendAfterDefinedRange`, `DeliveryWorker.DeferAndCommit`). So no row is deferred more than 37 times by a worker whose clock is after 1970, and never more than 48 times whatever the clock.
- **A row whose address never parses.** Its consequence is proved as `DeliveryWorker.UnparseableRowPanics`, for a queue in which that row is the only row, no other transaction holds it, and every database step succeeds. Under those conditions each attempt claims the row, defers it with `CorruptedData` and goes on without a sleep, so its retry count climbs by one per attempt, and the 38th such attempt on a fresh row panics and ends the worker; since `main` runs the worker task and the HTTP server under one `tokio::select!` (src/bin/dynamic.rs:66, 106-109), that also makes `main` return and stops the server, a process-level effect this model does not include. Without those conditions the panic is not certain: with other claimable rows the unordered claim may keep returning them, and a database step that keeps failing makes the worker sleep and retry indefinitely with the queue unchanged.
- **The announcement HTML body** ends in `to view.p>`, exactly as the source writes it.
- **The address field.** The task struct names the joined subscriber address `email`, while the worker reads it as `recipient`. Both are the field `email` of `EmailDeliveryTask` here.

## Model

| member | source | states |
|---|---|---|
| EmailDeliveryQueue.BackoffDelay | src/email_delivery_queue.rs:88-89 | the retry delay in seconds is never below the 60 s base interval and always a whole multiple of it |
| EmailDeliveryQueue.BackoffDoubles | src/email_delivery_queue.rs:88-89 | the delay for retry count 0 is the 60 s base interval, and each further retry doubles it |
| EmailDeliveryQueue.BackoffStrictlyIncreasing | src/email_delivery_queue.rs:88-89 | a higher retry count always gives a strictly longer delay |
| EmailDeliveryQueue.SendAfterDefinedRange | src/email_delivery_queue.rs:89-90 | the cast, `pow`, multiply, `as i64`, `Duration::seconds` and timestamp addition succeed only for retry counts 0..47 at any instant. From 1970 on they succeed only up to 36, since 60·2^37 s passes chrono's last instant. At every instant from 1970 to 4·10^12 s the counts that succeed are exactly 0..36 (an if-and-only-if) |
| EmailDeliveryQueue.U64ProductRange | src/email_delivery_queue.rs:89 | the unsigned 64-bit product of the base interval and the power of two fits exactly when the retry count is at most 58 (an if-and-only-if) |
| EmailDeliveryQueue.NewRow | src/email_delivery_queue.rs:29-42 | a row as inserted starts with no retries and is due the moment it is created (the column defaults) |
| EmailDeliveryQueue.Claimable | src/email_delivery_queue.rs:51-59 | the rows the claim may return are existing rows that no other transaction holds, each with an existing subscriber (inner join, `SKIP LOCKED`) |
| EmailDeliveryQueue.Deferred | src/email_delivery_queue.rs:92-99 | a deferral never adds or removes a row; the deferred row has one more retry and a `send_after` strictly after now |
| EmailDeliveryQueue.DeferredChangesOnlyRetryColumns | src/email_delivery_queue.rs:92-99 | a deferral keeps the set of rows and every other row. In the deferred row it raises `n_retries` by one and sets `send_after` to now plus the delay, strictly later than now; all other columns keep their values; an absent id changes nothing |
| EmailDeliveryQueue.DeferredRowStillClaimable | src/email_delivery_queue.rs:51-59 | a row just deferred into the future is still claimable, because the claim has no `send_after` filter |
| EmailDeliveryQueue.ClaimableAfterPop | src/email_delivery_queue.rs:70-76 | deleting a row makes exactly that row unclaimable; every other row stays claimable or not as before |
| EmailDeliveryQueue.ClaimableAfterDeferral | src/email_delivery_queue.rs:92-99 | a deferral changes no row's claimability, because the claim reads neither column the deferral writes |
| EmailDeliveryQueue.Transaction.Begin | src/email_delivery_worker/worker.rs:61 | a new transaction sees the committed queue and `blog_posts` and holds no row locks |
| EmailDeliveryQueue.Transaction.Commit | src/email_delivery_worker/worker.rs:94 | the committed tables become the transaction's copies; subscriptions and other transactions' locks are untouched; the transaction's own locks are released |
| EmailDeliveryQueue.PushTask | src/email_delivery_queue.rs:29-42 | a fresh id adds exactly one row under it, carrying the given subscriber, subject and bodies with the column defaults, and keeps every other row; an id already present violates the primary key and changes nothing, and so does any other database error of the round-trip |
| EmailDeliveryQueue.PeekTask | src/email_delivery_queue.rs:51-62 | returns `None` exactly when nothing is claimable. Otherwise it returns an existing row that no other transaction holds, whose subscriber exists, with that subscriber's address joined in and every column as stored, and it locks that row; no row is changed |
| EmailDeliveryQueue.PopTask | src/email_delivery_queue.rs:70-76 | removes exactly the row with the given id and leaves every other row unchanged; an absent id is a no-op |
| EmailDeliveryQueue.DeprioritiseTask | src/email_delivery_queue.rs:88-105 | the queue becomes `Deferred`, i.e. stored `n_retries` + 1 and `send_after` = now + 60·2^n for the caller's n, for counts the arithmetic survives |
| DeliveryWorker.Attempt | src/email_delivery_worker/worker.rs:61-95 | a panic, a database error or an empty queue leaves the queue table as it was, and no row other than the claimed one is ever added, removed or changed |
| DeliveryWorker.DeferAndCommit | src/email_delivery_worker/worker.rs:72-75 | the shared defer-and-commit path panics exactly when the backoff arithmetic fails for the row's count, and leaves the queue unchanged unless it reports the error it was given |
| DeliveryWorker.TryExecuteTask | src/email_delivery_worker/worker.rs:53-96 | the claim is a possible answer of the peek query (or none, if begin or peek failed); outcome and committed queue are those of `Attempt`; subscriptions, locks of others and `blog_posts` are untouched |
| DeliveryWorker.NothingClaimable | src/email_delivery_worker/worker.rs:63-65 | once begin and peek succeed, an empty claimable set gives `NoPendingTask` with nothing changed, whatever later steps would have done |
| DeliveryWorker.UnparseableAddressDefers | src/email_delivery_worker/worker.rs:67-76 | an address that does not parse defers the claimed row (one more retry, `send_after` moved by the backoff), commits and reports `CorruptedData`; the row stays |
| DeliveryWorker.FailedSendDefers | src/email_delivery_worker/worker.rs:79-91 | a failed send defers the claimed row exactly as `Deferred` says (one more retry, `send_after` moved by the backoff, subscriber, subject, bodies and `created_at` kept), commits and reports `EmailClientError`; the row is not deleted |
| DeliveryWorker.DeliveredIffSentAndCommitted | src/email_delivery_worker/worker.rs:93-95 | the attempt delivers exactly when the address parses, the send succeeds and begin, peek, delete and commit all succeed; delivery deletes exactly the claimed row, and any other outcome keeps it |
| DeliveryWorker.SentButNotCommitted | src/email_delivery_worker/worker.rs:79-95 | a message that went out but whose delete or commit failed leaves the queue unchanged, so it is sent again (at-least-once) |
| DeliveryWorker.NextStep | src/email_delivery_worker/worker.rs:16-38 | success and `CorruptedData` continue without sleeping, `NoPendingTask` sleeps 1 s, database and mail errors sleep 10 s, and only a panic stops the loop (each case an if-and-only-if) |
| DeliveryWorker.RunWorker | src/email_delivery_worker/worker.rs:16-38 | the loop makes one attempt per input and stops early only right after a panic; after each attempt that did not panic it sleeps as `NextStep` says; every claim is possible in its state, and outcomes and final queue are `Replay` of the attempts |
| DeliveryWorker.UnparseableRowPanics | src/email_delivery_worker/worker.rs:16-76 | for a queue whose only row is unlocked and has an unparseable address, with every database step succeeding: each attempt yields `CorruptedData` and adds one retry as long as no panic occurs. That can last only while the count stays at or below 48, and at or below 37 when the clock is after 1970. So a run that would take the count past 37 (past 48 for any clock) contains a panic |
| Uuids.UuidText | src/email_template.rs:6-9 | the printed id is 36 characters long |
| Uuids.UuidTextRoundTrip | src/email_template.rs:6-9 | parsing the printed id gives the id back |
| Uuids.UuidTextInjective | src/email_template.rs:6-9 | distinct ids print differently |
| EmailTemplate.UnsubscribeLink | src/email_template.rs:4-10 | the link is the base URL and the unsubscribe route followed by a 36-character query, and that query parses back to the subscriber's id |
| EmailTemplate.UnsubscribeLinkRoundTrip | src/email_template.rs:4-10 | the link is the base URL, `/subscriptions/unsubscribe?id=` and the id, and reading the id back off the link yields the subscriber it was made for |
| EmailTemplate.TextVersionShape | src/email_template.rs:31-38 | the text version is exactly the body, a blank line, the 43-dash rule, the notice line and `Unsubscribe: <link>`, each ending in a line break; it starts with the body and the link can be sliced out of its last line |
| EmailTemplate.TextVersion | src/email_template.rs:31-38 | stripping this subscriber's text footer from the text version gives back the body unchanged |
| EmailTemplate.HtmlVersionShape | src/email_template.rs:12-29 | the HTML version is the opening `<div>`, the body verbatim, the footer head ending in `href="`, the link, and the closing markup, at computed offsets |
| EmailTemplate.HtmlVersion | src/email_template.rs:12-29 | stripping the opening markup and this subscriber's HTML footer from the HTML version gives back the body unchanged |
| EmailTemplate.VersionsShareLink | src/email_template.rs:12-38 | both versions for one subscriber carry the same link, and that link leads back to that subscriber |
| RustStr.SplitProperties | src/bin/blog_post_dispatcher.rs:24 | no piece of `split('\n')` contains a line break, there is one piece more than line breaks, and the pieces rebuild the input |
| RustStr.StripBothIff | src/bin/blog_post_dispatcher.rs:52-58 | stripping a prefix and then a suffix leaves `mid` exactly when the string is prefix + `mid` + suffix |
| BlogPostDispatcher.NewFileList | src/bin/blog_post_dispatcher.rs:24-26 | the list holds one file per line break, none contains a line break, re-terminated they form a prefix of the output that leaves no line break behind, and the list is empty exactly when the output has no line break |
| BlogPostDispatcher.Slug | src/bin/blog_post_dispatcher.rs:52-58 | a slug, when there is one, put back between `blog/` and `.html` gives the file's path |
| BlogPostDispatcher.SlugIff | src/bin/blog_post_dispatcher.rs:52-58 | a file has slug `s` exactly when it is `blog/` + s + `.html`; any other path has no slug (the source panics) |
| BlogPostDispatcher.Link | src/bin/blog_post_dispatcher.rs:59 | the link starts with the base URL, and after `/blog/` the slug reads back unchanged |
| BlogPostDispatcher.HtmlBody | src/bin/blog_post_dispatcher.rs:62-65 | the link stands verbatim as the anchor's target right after the fixed opening |
| BlogPostDispatcher.TextBody | src/bin/blog_post_dispatcher.rs:66 | the link stands verbatim between the fixed opening and the closing full stop |
| BlogPostDispatcher.TextBodyInjective | src/bin/blog_post_dispatcher.rs:59-66 | different slugs give different text bodies |
| BlogPostDispatcher.AnnouncementRowInjective | src/bin/blog_post_dispatcher.rs:59-79 | an announcement's subscriber and text determine whom and which post it is for |
| BlogPostDispatcher.InsertAnnouncements | src/bin/blog_post_dispatcher.rs:67-85 | a registered slug adds nothing; otherwise the statement fails exactly when a drawn id repeats or is taken, and on success keeps every row and adds one row per confirmed subscriber under its drawn id, carrying the given subject and bodies |
| BlogPostDispatcher.InsertAnnouncementsEffect | src/bin/blog_post_dispatcher.rs:67-79 | for a new slug the added rows are exactly one announcement per confirmed subscriber, with no duplicates |
| BlogPostDispatcher.AnnouncedRowShape | src/bin/blog_post_dispatcher.rs:61-74 | every enqueued row has subject `New blog post`, belongs to an existing confirmed subscriber (never an unconfirmed one), starts with no retries and due now, and carries the bodies of one of the announced posts |
| BlogPostDispatcher.AtMostOnePerSubscriberAndPost | src/bin/blog_post_dispatcher.rs:67-74 | no two enqueued rows are for the same subscriber and post |
| BlogPostDispatcher.NoNewPostNoRows | src/bin/blog_post_dispatcher.rs:73 | a run whose posts were all registered already enqueues nothing |
| BlogPostDispatcher.AnnouncementsCompose | src/bin/blog_post_dispatcher.rs:51-92 | announcements of one set of posts followed by those of a further post are the announcements of the union |
| BlogPostDispatcher.EnqueuePost | src/bin/blog_post_dispatcher.rs:52-91 | on success the file has a slug, neither of its statements failed, and the running invariant extends by that slug; with a valid path, free ids and (if slugs are a key) an unregistered slug it succeeds |
| BlogPostDispatcher.EnqueueAnnouncements | src/bin/blog_post_dispatcher.rs:51-92 | without a panic every file had a slug, `blog_posts` gained exactly the slugs, every old row is kept, and the rows added are exactly one announcement per confirmed subscriber and newly registered post; when nothing in the data or the environment hinders it, it does not panic |
| BlogPostDispatcher.DispatchNewPosts | src/bin/blog_post_dispatcher.rs:24-97 | no new files means exit with nothing done; anything but a commit leaves both tables unchanged; a commit registers exactly the posts' slugs and adds exactly their announcements for new posts; with no fault and nothing hindering, the run commits |

## Left out

- Concurrency: competing workers and `FOR UPDATE … SKIP LOCKED` races are reduced to a given set of rows locked by other transactions, which stays fixed during a call.
- The clock: `Utc::now()` is the parameter `now`, in whole seconds; sub-second precision is not modelled.
- Sleeps: the worker returns its sleep durations instead of sleeping.
- The worker loop is modelled as a finite prefix of the endless loop, one environment input per iteration.
- The mail transport (lettre) and its error detail: a send is a success/failure input.
- `SubscriberEmail::parse`, from the domain module, is not part of this model: it is the parameter predicate `validEmail`.
- Logging and tracing have no effect on state and are left out.
- `Uuid::new_v4()` and `gen_random_uuid()` are random: the ids are parameters (`id`, and `gen(file, subscriber)`).
- The database migrations are not part of this model. `created_at` and `send_after` are assumed to default to the insert time, and `n_retries` to 0. The dispatcher's insert names no columns and so fills the table's first five columns by position; the model assumes these are `id`, `subscriber_id`, `subject`, `email_html` and `email_text`, in that order.
- No foreign key from `subscriber_id` to `subscriptions` is assumed, so rows of removed subscribers stay unclaimable.
- Whether `blog_posts.slug` is unique is not known; the parameter `slugIsKey` covers both cases.
- The git subprocess, `String::from_utf8(..).unwrap()`, the environment reads (`read_env_or_panic`, the `DB_PORT` parse) and connection options are inputs or a single connect fault.
- The extra `.bind(task_id)` at src/email_delivery_queue.rs:103 is not modelled: the update is taken to run with its two placeholders bound. How the driver treats the surplus argument depends on the driver, and it is not part of this model.
- DeprioritiseTask: requires that the backoff arithmetic succeed for the caller's count rather than modelling the overflow or panic. The worker calls it only after checking this, and turns the other case into its `Panicked` outcome.
- DeprioritiseTask: does not model Postgres rejecting `n_retries + 1` beyond the 32-bit integer range. Through the worker the stored count never exceeds 48.
- DeliveryWorker.Attempt: a backoff overflow is modelled with debug-build semantics (a panic). A release build would wrap the u64 product silently only for counts of 59 and more (`EmailDeliveryQueue.U64ProductRange`); at 58 the product fits and it is the `as i64` conversion that changes the value, in either build. A negative count is the other difference: `n_retries as u32` turns it into a value of 2^31 or more, whose `pow` wraps to 0 in a release build (a zero delay, no panic) and panics in a debug build, which the model follows (`SendAfterDefined` requires a count of at least 0). Release and debug builds thus differ only at negative counts and at counts of 58 and above. No code in the source writes either: `n_retries` starts at 0 and only grows by one per deferral, and `Duration::seconds` already panics from 48 on in either build.
- DispatchNewPosts: a failing database round-trip is one of a fixed set of fault points (connect or begin, each file's enqueue or registration, commit); error values and their messages are not modelled.

=== FILE: blog_post_dispatcher.dfy ===
/**
 * The blog-post dispatcher, the second producer of queue rows: it reads the
 * list of blog files the latest commit added (the stdout of `git diff
 * --diff-filter=A --name-only HEAD^1 HEAD blog`, a parameter here), and in
 * one transaction enqueues an announcement for every confirmed subscriber
 * of each post not yet in `blog_posts`, then registers the post.
 */
module BlogPostDispatcher {
  import opened Wrappers
  import opened Uuids
  import opened RustStr
  import opened EmailDeliveryQueue

  // ---------------------------------------------------------------------
  // The new-file list
  // ---------------------------------------------------------------------

  lemma CountZeroIff(s: string, c: char)
    ensures Count(s, c) == 0 <==> c !in s
  {
    if c in s { CountSplit(s, c, IndexOf(s, c)); } else { CountAbsent(s, c); }
  }

  /**
   * `output.split('\n')` with its last piece popped: the lines of the git
   * output that end in a line break, in order. Each is free of line breaks,
   * re-terminated they form a prefix of the output that leaves no line break
   * behind, and the list is empty exactly when the output has no line break
   * (in particular when it is empty).
   */
  function NewFileList(gitOutput: string): (files: seq<string>)
    ensures |files| == Count(gitOutput, '\n')
    ensures forall i | 0 <= i < |files| :: '\n' !in files[i]
    ensures Terminated(files, '\n') <= gitOutput
    ensures '\n' !in gitOutput[|Terminated(files, '\n')|..]
    ensures files == [] <==> '\n' !in gitOutput
  {
    SplitProperties(gitOutput, '\n');
    CountZeroIff(gitOutput, '\n');
    var pieces := Split(gitOutput, '\n');
    var files := pieces[..|pieces| - 1];
    assert Terminated(files, '\n') + pieces[|pieces| - 1] == gitOutput;
    assert gitOutput[|Terminated(files, '\n')|..] == pieces[|pieces| - 1];
    files
  }

  // ---------------------------------------------------------------------
  // Slug, link and message bodies
  // ---------------------------------------------------------------------

  const SUBJECT := "New blog post"

  const BLOG_DIR := "blog/"
  const HTML_EXTENSION := ".html"

  /**
   * The slug of a blog file: its path without `blog/` and `.html`; `None`
   * where the source panics. A slug put back between the two gives the path.
   */
  function Slug(file: string): (slug: Option<string>)
    ensures slug.Some? ==> file == BLOG_DIR + slug.value + HTML_EXTENSION
  {
    match StripPrefix(file, BLOG_DIR)
    case None => None
    case Some(rest) =>
      var slug := StripSuffix(rest, HTML_EXTENSION);
      if slug.Some? then StripBothIff(file, BLOG_DIR, HTML_EXTENSION, slug.value); slug else slug
  }

  /** A file has slug `slug` exactly when it is `blog/<slug>.html`. */
  lemma SlugIff(file: string, slug: string)
    ensures Slug(file) == Some(slug) <==> file == "blog/" + slug + ".html"
  {
    StripBothIff(file, BLOG_DIR, HTML_EXTENSION, slug);
  }

  const BLOG_PATH := "/blog/"

  /** The post's page under the site's base URL; the slug reads back from its end. */
  function Link(baseUrl: string, slug: string): (link: string)
    ensures |link| == |baseUrl| + |BLOG_PATH| + |slug|
    ensures link[..|baseUrl|] == baseUrl && link[|baseUrl|..|baseUrl| + |BLOG_PATH|] == BLOG_PATH
    ensures link[|baseUrl| + |BLOG_PATH|..] == slug
  {
    ConcatSlices(baseUrl, BLOG_PATH, slug);
    baseUrl + BLOG_PATH + slug
  }

  // The fixed parts of the two bodies; the HTML one keeps the source's
  // `view.p>` ending as written.
  const HTML_BODY_OPEN := "<p>New blog post! Click <a href="
  const HTML_BODY_CLOSE := ">here</a> to view.p>"
  const TEXT_BODY_OPEN := "New blog post! Available at "
  const TEXT_BODY_CLOSE := "."

  /** The HTML body: the link is the anchor's target. */
  function HtmlBody(link: string): (html: string)
    ensures |html| == |HTML_BODY_OPEN| + |link| + |HTML_BODY_CLOSE|
    ensures html[..|HTML_BODY_OPEN|] == HTML_BODY_OPEN
    ensures html[|HTML_BODY_OPEN|..|HTML_BODY_OPEN| + |link|] == link
    ensures html[|HTML_BODY_OPEN| + |link|..] == HTML_BODY_CLOSE
  {
    ConcatSlices(HTML_BODY_OPEN, link, HTML_BODY_CLOSE);
    HTML_BODY_OPEN + link + HTML_BODY_CLOSE
  }

  /** The text body: the link stands between the fixed opening and the closing full stop. */
  function TextBody(link: string): (text: string)
    ensures |text| == |TEXT_BODY_OPEN| + |link| + |TEXT_BODY_CLOSE|
    ensures text[..|TEXT_BODY_OPEN|] == TEXT_BODY_OPEN
    ensures text[|TEXT_BODY_OPEN|..|TEXT_BODY_OPEN| + |link|] == link
    ensures text[|TEXT_BODY_OPEN| + |link|..] == TEXT_BODY_CLOSE
  {
    ConcatSlices(TEXT_BODY_OPEN, link, TEXT_BODY_CLOSE);
    TEXT_BODY_OPEN + link + TEXT_BODY_CLOSE
  }

  lemma CancelMiddle(p: string, x: string, y: string, q: string)
    requires p + x + q == p + y + q
    ensures x == y
  {
    ConcatSlices(p, x, q);
    ConcatSlices(p, y, q);
  }

  /** The text body names the post: different slugs give different bodies. */
  lemma TextBodyInjective(baseUrl: string, s1: string, s2: string)
    requires TextBody(Link(baseUrl, s1)) == TextBody(Link(baseUrl, s2))
    ensures s1 == s2
  {
    var p := TEXT_BODY_OPEN + baseUrl + BLOG_PATH;
    assert TextBody(Link(baseUrl, s1)) == p + s1 + TEXT_BODY_CLOSE;
    assert TextBody(Link(baseUrl, s2)) == p + s2 + TEXT_BODY_CLOSE;
    CancelMiddle(p, s1, s2, TEXT_BODY_CLOSE);
  }

  /** The row announcing post `slug` to subscriber `subscriberId`. */
  function AnnouncementRow(subscriberId: Uuid, baseUrl: string, slug: string, now: Timestamp): (row: QueueRow)
  {
    NewRow(subscriberId, SUBJECT, HtmlBody(Link(baseUrl, slug)), TextBody(Link(baseUrl, slug)), now)
  }

  /** Announcements of different posts are different rows. */
  lemma AnnouncementRowsDiffer(c1: Uuid, c2: Uuid, baseUrl: string, s1: string, s2: string, now: Timestamp)
    requires s1 != s2
    ensures AnnouncementRow(c1, baseUrl, s1, now) != AnnouncementRow(c2, baseUrl, s2, now)
  {
    assert AnnouncementRow(c1, baseUrl, s1, now) == AnnouncementRow(c2, baseUrl, s2, now) ==> s1 == s2 by {
      if AnnouncementRow(c1, baseUrl, s1, now) == AnnouncementRow(c2, baseUrl, s2, now) {
        TextBodyInjective(baseUrl, s1, s2);
      }
    }
  }

  /** An announcement says whom and which post it is for. */
  lemma AnnouncementRowInjective(c1: Uuid, c2: Uuid, baseUrl: string, s1: string, s2: string, now: Timestamp)
    requires AnnouncementRow(c1, baseUrl, s1, now).subscriberId == AnnouncementRow(c2, baseUrl, s2, now).subscriberId
    requires AnnouncementRow(c1, baseUrl, s1, now).emailText == AnnouncementRow(c2, baseUrl, s2, now).emailText
    ensures c1 == c2 && s1 == s2
  {
    TextBodyInjective(baseUrl, s1, s2);
  }

  // ---------------------------------------------------------------------
  // The enqueue statement
  // ---------------------------------------------------------------------

  /** The subscribers who confirmed their address. */
  function Confirmed(subscriptions: map<Uuid, Subscription>): (ids: set<Uuid>)
    ensures ids <= subscriptions.Keys
  {
    set id | id in subscriptions && subscriptions[id].confirmed
  }

  /**
   * Whether the ids `gen_random_uuid()` draws for the rows of file `file`
   * are pairwise distinct and clash with no row already in the table.
   */
  predicate FreshDraws(gen: (nat, Uuid) -> Uuid, file: nat, subscribers: set<Uuid>, queue: map<Uuid, QueueRow>)
  {
    && (forall c1, c2 | c1 in subscribers && c2 in subscribers && c1 != c2 :: gen(file, c1) != gen(file, c2))
    && (forall c | c in subscribers :: gen(file, c) !in queue)
  }

  /**
   * The enqueue statement for one post: one row per confirmed subscriber,
   * under a freshly drawn id, carrying the given subject and bodies; no rows
   * when the slug is already registered. `None` is the statement failing
   * because a drawn id is already taken or drawn twice.
   */
  function InsertAnnouncements(queue: map<Uuid, QueueRow>, subscriptions: map<Uuid, Subscription>,
                               blogPosts: set<string>, subject: string, html: string, text: string,
                               slug: string, gen: (nat, Uuid) -> Uuid, file: nat, now: Timestamp)
    : (r: Option<map<Uuid, QueueRow>>)
    ensures slug in blogPosts ==> r == Some(queue)
    ensures r.None? <==> slug !in blogPosts && !FreshDraws(gen, file, Confirmed(subscriptions), queue)
    ensures r.Some? ==> Keeps(queue, r.value)
    ensures r.Some? && slug !in blogPosts ==>
      && r.value.Keys == queue.Keys + (set c | c in Confirmed(subscriptions) :: gen(file, c))
      && forall c | c in Confirmed(subscriptions) ::
           gen(file, c) in r.value && r.value[gen(file, c)] == NewRow(c, subject, html, text, now)
  {
    var subscribers := Confirmed(subscriptions);
    if slug in blogPosts then Some(queue)
    else if !FreshDraws(gen, file, subscribers, queue) then None
    else Some(queue + map c | c in subscribers :: gen(file, c) := NewRow(c, subject, html, text, now))
  }

  // ---------------------------------------------------------------------
  // What the enqueued rows are
  // ---------------------------------------------------------------------

  /** The rows of `after` that `before` did not have. */
  function Added(before: map<Uuid, QueueRow>, after: map<Uuid, QueueRow>): (added: map<Uuid, QueueRow>)
    ensures added.Keys == after.Keys - before.Keys
  {
    map id | id in after && id !in before :: after[id]
  }

  /** Every row of `before` is still in `after`, unchanged. */
  predicate Keeps(before: map<Uuid, QueueRow>, after: map<Uuid, QueueRow>)
  {
    forall id | id in before :: id in after && after[id] == before[id]
  }

  ghost predicate IsAnnouncement(row: QueueRow, subscribers: set<Uuid>, baseUrl: string, slugs: set<string>, now: Timestamp)
  {
    exists c, s :: c in subscribers && s in slugs && row == AnnouncementRow(c, baseUrl, s, now)
  }

  ghost predicate Announced(added: map<Uuid, QueueRow>, c: Uuid, baseUrl: string, s: string, now: Timestamp)
  {
    exists id :: id in added && added[id] == AnnouncementRow(c, baseUrl, s, now)
  }

  /**
   * `added` announces each post of `slugs` to each of `subscribers` exactly
   * once and holds nothing else: every row is such an announcement, every
   * pair is announced, and no two rows are the same announcement.
   */
  ghost predicate Announcements(added: map<Uuid, QueueRow>, subscribers: set<Uuid>, baseUrl: string,
                                slugs: set<string>, now: Timestamp)
  {
    && (forall id | id in added :: IsAnnouncement(added[id], subscribers, baseUrl, slugs, now))
    && (forall c, s | c in subscribers && s in slugs :: Announced(added, c, baseUrl, s, now))
    && (forall id1, id2 | id1 in added && id2 in added && added[id1] == added[id2] :: id1 == id2)
  }

  /** Announcements hold no two rows for the same subscriber and post. */
  lemma AtMostOnePerSubscriberAndPost(added: map<Uuid, QueueRow>, subscribers: set<Uuid>, baseUrl: string,
                                      slugs: set<string>, now: Timestamp, id1: Uuid, id2: Uuid)
    requires Announcements(added, subscribers, baseUrl, slugs, now)
    requires id1 in added && id2 in added
    requires added[id1].subscriberId == added[id2].subscriberId && added[id1].emailText == added[id2].emailText
    ensures id1 == id2
  {
    var c1, s1 :| c1 in subscribers && s1 in slugs && added[id1] == AnnouncementRow(c1, baseUrl, s1, now);
    var c2, s2 :| c2 in subscribers && s2 in slugs && added[id2] == AnnouncementRow(c2, baseUrl, s2, now);
    AnnouncementRowInjective(c1, c2, baseUrl, s1, s2, now);
  }

  /** Every enqueued row is a "New blog post" announcement, unretried and due, for a confirmed subscriber. */
  lemma AnnouncedRowShape(added: map<Uuid, QueueRow>, subscriptions: map<Uuid, Subscription>, baseUrl: string,
                          slugs: set<string>, now: Timestamp, id: Uuid)
    requires Announcements(added, Confirmed(subscriptions), baseUrl, slugs, now) && id in added
    ensures var row := added[id];
      && row.subject == "New blog post"
      && row.subscriberId in subscriptions && subscriptions[row.subscriberId].confirmed
      && row.nRetries == 0 && row.createdAt == now && row.sendAfter == now
      && exists s :: s in slugs && row.emailText == TextBody(Link(baseUrl, s)) && row.emailHtml == HtmlBody(Link(baseUrl, s))
  {
    var c, s :| c in Confirmed(subscriptions) && s in slugs && added[id] == AnnouncementRow(c, baseUrl, s, now);
  }

  lemma NoAnnouncementsOfNothing(added: map<Uuid, QueueRow>, subscribers: set<Uuid>, baseUrl: string,
                                 slugs: set<string>, now: Timestamp)
    requires forall id | id in added :: IsAnnouncement(added[id], subscribers, baseUrl, slugs, now)
    requires slugs == {}
    ensures added == map[]
  {
  }

  /** Nothing is enqueued by a run whose posts were all registered already. */
  lemma NoNewPostNoRows(q0: map<Uuid, QueueRow>, queue: map<Uuid, QueueRow>, subscribers: set<Uuid>,
                        baseUrl: string, p0: set<string>, blogPosts: set<string>, now: Timestamp)
    requires Keeps(q0, queue) && Announcements(Added(q0, queue), subscribers, baseUrl, blogPosts - p0, now)
    requires blogPosts <= p0
    ensures queue == q0
  {
    assert blogPosts - p0 == {};
    assert Added(q0, queue) == map[] by {
      NoAnnouncementsOfNothing(Added(q0, queue), subscribers, baseUrl, blogPosts - p0, now);
    }
    forall id | id in queue
      ensures id in q0
    {
      assert id !in q0 ==> id in Added(q0, queue);
    }
  }

  /** The rows the enqueue statement adds for a new slug: one announcement under each drawn id. */
  lemma InsertedRows(queue: map<Uuid, QueueRow>, subscriptions: map<Uuid, Subscription>,
                     blogPosts: set<string>, baseUrl: string, slug: string,
                     gen: (nat, Uuid) -> Uuid, file: nat, now: Timestamp)
    requires slug !in blogPosts
    requires FreshDraws(gen, file, Confirmed(subscriptions), queue)
    ensures var link := Link(baseUrl, slug);
      var r := InsertAnnouncements(queue, subscriptions, blogPosts, SUBJECT, HtmlBody(link), TextBody(link), slug, gen, file, now);
      && r.Some? && Keeps(queue, r.value)
      && (forall c | c in Confirmed(subscriptions) ::
            gen(file, c) in Added(queue, r.value) && Added(queue, r.value)[gen(file, c)] == AnnouncementRow(c, baseUrl, slug, now))
      && (forall id | id in Added(queue, r.value) :: exists c :: c in Confirmed(subscriptions) && id == gen(file, c))
  {
  }

  /** One row per subscriber under the ids drawn for file `file` is that file's announcements. */
  lemma AnnouncementsOfDraws(added: map<Uuid, QueueRow>, subscribers: set<Uuid>, baseUrl: string, slug: string,
                             gen: (nat, Uuid) -> Uuid, file: nat, now: Timestamp)
    requires forall c | c in subscribers :: gen(file, c) in added && added[gen(file, c)] == AnnouncementRow(c, baseUrl, slug, now)
    requires forall id | id in added :: exists c :: c in subscribers && id == gen(file, c)
    ensures Announcements(added, subscribers, baseUrl, {slug}, now)
  {
    forall id | id in added
      ensures IsAnnouncement(added[id], subscribers, baseUrl, {slug}, now)
    {
      var c :| c in subscribers && id == gen(file, c);
      assert added[id] == AnnouncementRow(c, baseUrl, slug, now);
    }
    forall c, s | c in subscribers && s in {slug}
      ensures Announced(added, c, baseUrl, s, now)
    {
      assert gen(file, c) in added && added[gen(file, c)] == AnnouncementRow(c, baseUrl, s, now);
    }
    forall id1, id2 | id1 in added && id2 in added && added[id1] == added[id2]
      ensures id1 == id2
    {
      var c1 :| c1 in subscribers && id1 == gen(file, c1);
      var c2 :| c2 in subscribers && id2 == gen(file, c2);
      assert added[id1].subscriberId == c1 && added[id2].subscriberId == c2;
    }
  }

  /** The enqueue statement for a new slug adds exactly its announcements and keeps every row. */
  lemma InsertAnnouncementsEffect(queue: map<Uuid, QueueRow>, subscriptions: map<Uuid, Subscription>,
                                  blogPosts: set<string>, baseUrl: string, slug: string,
                                  gen: (nat, Uuid) -> Uuid, file: nat, now: Timestamp)
    requires slug !in blogPosts
    requires FreshDraws(gen, file, Confirmed(subscriptions), queue)
    ensures var link := Link(baseUrl, slug);
      var r := InsertAnnouncements(queue, subscriptions, blogPosts, SUBJECT, HtmlBody(link), TextBody(link), slug, gen, file, now);
      && r.Some? && Keeps(queue, r.value)
      && Announcements(Added(queue, r.value), Confirmed(subscriptions), baseUrl, {slug}, now)
  {
    var link := Link(baseUrl, slug);
    var r := InsertAnnouncements(queue, subscriptions, blogPosts, SUBJECT, HtmlBody(link), TextBody(link), slug, gen, file, now);
    InsertedRows(queue, subscriptions, blogPosts, baseUrl, slug, gen, file, now);
    AnnouncementsOfDraws(Added(queue, r.value), Confirmed(subscriptions), baseUrl, slug, gen, file, now);
  }

  /** Where the rows added over two steps come from: each step's own additions, unchanged. */
  lemma AddedCompose(q0: map<Uuid, QueueRow>, q1: map<Uuid, QueueRow>, q2: map<Uuid, QueueRow>)
    requires Keeps(q0, q1) && Keeps(q1, q2)
    ensures Keeps(q0, q2)
    ensures forall id | id in Added(q0, q1) :: id in Added(q0, q2) && Added(q0, q2)[id] == Added(q0, q1)[id]
    ensures forall id | id in Added(q1, q2) :: id in Added(q0, q2) && Added(q0, q2)[id] == Added(q1, q2)[id]
    ensures forall id | id in Added(q0, q2) :: id in Added(q0, q1) || id in Added(q1, q2)
  {
  }

  lemma ComposeRows(q0: map<Uuid, QueueRow>, q1: map<Uuid, QueueRow>, q2: map<Uuid, QueueRow>,
                    subscribers: set<Uuid>, baseUrl: string, slugs: set<string>, slug: string, now: Timestamp)
    requires Keeps(q0, q1) && Keeps(q1, q2)
    requires forall id | id in Added(q0, q1) :: IsAnnouncement(Added(q0, q1)[id], subscribers, baseUrl, slugs, now)
    requires forall id | id in Added(q1, q2) :: IsAnnouncement(Added(q1, q2)[id], subscribers, baseUrl, {slug}, now)
    ensures forall id | id in Added(q0, q2) :: IsAnnouncement(Added(q0, q2)[id], subscribers, baseUrl, slugs + {slug}, now)
  {
    AddedCompose(q0, q1, q2);
    var a01, a12, a02 := Added(q0, q1), Added(q1, q2), Added(q0, q2);
    forall id | id in a02
      ensures IsAnnouncement(a02[id], subscribers, baseUrl, slugs + {slug}, now)
    {
      if id in a01 {
        var c, s :| c in subscribers && s in slugs && a01[id] == AnnouncementRow(c, baseUrl, s, now);
        assert s in slugs + {slug};
      } else {
        var c, s :| c in subscribers && s in {slug} && a12[id] == AnnouncementRow(c, baseUrl, s, now);
        assert s in slugs + {slug};
      }
    }
  }

  lemma ComposeCoverage(q0: map<Uuid, QueueRow>, q1: map<Uuid, QueueRow>, q2: map<Uuid, QueueRow>,
                        subscribers: set<Uuid>, baseUrl: string, slugs: set<string>, slug: string, now: Timestamp)
    requires Keeps(q0, q1) && Keeps(q1, q2)
    requires forall c, s | c in subscribers && s in slugs :: Announced(Added(q0, q1), c, baseUrl, s, now)
    requires forall c, s | c in subscribers && s in {slug} :: Announced(Added(q1, q2), c, baseUrl, s, now)
    ensures forall c, s | c in subscribers && s in slugs + {slug} :: Announced(Added(q0, q2), c, baseUrl, s, now)
  {
    AddedCompose(q0, q1, q2);
    var a01, a12, a02 := Added(q0, q1), Added(q1, q2), Added(q0, q2);
    forall c, s | c in subscribers && s in slugs + {slug}
      ensures Announced(a02, c, baseUrl, s, now)
    {
      if s in slugs {
        assert Announced(a01, c, baseUrl, s, now);
        var id :| id in a01 && a01[id] == AnnouncementRow(c, baseUrl, s, now);
        assert id in a02 && a02[id] == a01[id];
      } else {
        assert Announced(a12, c, baseUrl, s, now);
        var id :| id in a12 && a12[id] == AnnouncementRow(c, baseUrl, s, now);
        assert id in a02 && a02[id] == a12[id];
      }
    }
  }

  /** Rows announcing posts of `slugs` differ from rows announcing a post outside it. */
  lemma StepsAddDifferentRows(a01: map<Uuid, QueueRow>, a12: map<Uuid, QueueRow>, subscribers: set<Uuid>,
                              baseUrl: string, slugs: set<string>, slug: string, now: Timestamp)
    requires forall id | id in a01 :: IsAnnouncement(a01[id], subscribers, baseUrl, slugs, now)
    requires forall id | id in a12 :: IsAnnouncement(a12[id], subscribers, baseUrl, {slug}, now)
    requires slug !in slugs
    ensures forall x, y | x in a01 && y in a12 :: a01[x] != a12[y]
  {
    forall x, y | x in a01 && y in a12
      ensures a01[x] != a12[y]
    {
      var c1, s1 :| c1 in subscribers && s1 in slugs && a01[x] == AnnouncementRow(c1, baseUrl, s1, now);
      var c2, s2 :| c2 in subscribers && s2 in {slug} && a12[y] == AnnouncementRow(c2, baseUrl, s2, now);
      AnnouncementRowsDiffer(c1, c2, baseUrl, s1, s2, now);
    }
  }

  lemma ComposeDistinct(q0: map<Uuid, QueueRow>, q1: map<Uuid, QueueRow>, q2: map<Uuid, QueueRow>,
                        subscribers: set<Uuid>, baseUrl: string, slugs: set<string>, slug: string, now: Timestamp)
    requires Keeps(q0, q1) && Keeps(q1, q2)
    requires forall id | id in Added(q0, q1) :: IsAnnouncement(Added(q0, q1)[id], subscribers, baseUrl, slugs, now)
    requires forall id | id in Added(q1, q2) :: IsAnnouncement(Added(q1, q2)[id], subscribers, baseUrl, {slug}, now)
    requires forall id1, id2 | id1 in Added(q0, q1) && id2 in Added(q0, q1) && Added(q0, q1)[id1] == Added(q0, q1)[id2] :: id1 == id2
    requires forall id1, id2 | id1 in Added(q1, q2) && id2 in Added(q1, q2) && Added(q1, q2)[id1] == Added(q1, q2)[id2] :: id1 == id2
    requires slug !in slugs
    ensures forall id1, id2 | id1 in Added(q0, q2) && id2 in Added(q0, q2) && Added(q0, q2)[id1] == Added(q0, q2)[id2] :: id1 == id2
  {
    AddedCompose(q0, q1, q2);
    var a01, a12, a02 := Added(q0, q1), Added(q1, q2), Added(q0, q2);
    StepsAddDifferentRows(a01, a12, subscribers, baseUrl, slugs, slug, now);
    forall id1, id2 | id1 in a02 && id2 in a02 && a02[id1] == a02[id2]
      ensures id1 == id2
    {
      if id1 in a01 && id2 in a01 {
        assert a01[id1] == a01[id2];
      } else if id1 !in a01 && id2 !in a01 {
        assert a12[id1] == a12[id2];
      }
    }
  }

  /** Announcements of disjoint sets of posts, made one after the other, add up. */
  lemma AnnouncementsCompose(q0: map<Uuid, QueueRow>, q1: map<Uuid, QueueRow>, q2: map<Uuid, QueueRow>,
                             subscribers: set<Uuid>, baseUrl: string, slugs: set<string>, slug: string, now: Timestamp)
    requires Keeps(q0, q1) && Announcements(Added(q0, q1), subscribers, baseUrl, slugs, now)
    requires Keeps(q1, q2) && Announcements(Added(q1, q2), subscribers, baseUrl, {slug}, now)
    requires slug !in slugs
    ensures Keeps(q0, q2) && Announcements(Added(q0, q2), subscribers, baseUrl, slugs + {slug}, now)
  {
    AddedCompose(q0, q1, q2);
    ComposeRows(q0, q1, q2, subscribers, baseUrl, slugs, slug, now);
    ComposeCoverage(q0, q1, q2, subscribers, baseUrl, slugs, slug, now);
    ComposeDistinct(q0, q1, q2, subscribers, baseUrl, slugs, slug, now);
  }

  // ---------------------------------------------------------------------
  // The dispatcher run
  // ---------------------------------------------------------------------

  /** A failing step of the run: connecting or beginning, one file's enqueue or registration, the commit. */
  datatype DispatchFault = NoFault | ConnectFails | EnqueueFails(file: nat) | RegisterFails(file: nat) | CommitFails

  /**
   * How a run ends: exit(0) with nothing new, a commit, a panic (which drops
   * the transaction), or an error returned from `main` before or at commit.
   */
  datatype DispatchOutcome = NoNewPosts | Committed | Panicked | Errored

  predicate AllHaveSlugs(files: seq<string>)
  {
    forall i | 0 <= i < |files| :: Slug(files[i]).Some?
  }

  function Slugs(files: seq<string>): (slugs: seq<string>)
    requires AllHaveSlugs(files)
    ensures |slugs| == |files| && forall i | 0 <= i < |files| :: Slug(files[i]) == Some(slugs[i])
  {
    seq(|files|, i requires 0 <= i < |files| => Slug(files[i]).value)
  }

  /** Every id the run draws is new to the table and drawn only once. */
  predicate FreshDrawsAll(gen: (nat, Uuid) -> Uuid, n: nat, subscribers: set<Uuid>, queue: map<Uuid, QueueRow>)
  {
    && (forall i, c | 0 <= i < n && c in subscribers :: gen(i, c) !in queue)
    && (forall i, j, c, d | 0 <= i < n && 0 <= j < n && c in subscribers && d in subscribers && (i, c) != (j, d)
          :: gen(i, c) != gen(j, d))
  }

  /**
   * Nothing in the data stops the loop: every file is a blog post, every
   * drawn id is free, and where slugs are a key no slug repeats or is
   * registered already.
   */
  predicate Unhindered(files: seq<string>, gen: (nat, Uuid) -> Uuid, slugIsKey: bool,
                       subscribers: set<Uuid>, q0: map<Uuid, QueueRow>, p0: set<string>)
  {
    && AllHaveSlugs(files)
    && FreshDrawsAll(gen, |files|, subscribers, q0)
    && (slugIsKey ==> forall i, j | 0 <= i < j < |files| :: Slugs(files)[i] != Slugs(files)[j])
    && (slugIsKey ==> forall i | 0 <= i < |files| :: Slugs(files)[i] !in p0)
  }

  /** Whether `fault` hits a statement inside the loop over `n` files. */
  predicate FaultInLoop(fault: DispatchFault, n: nat)
  {
    (fault.EnqueueFails? || fault.RegisterFails?) && fault.file < n
  }

  /** What holds after the first `|done|` files: registered slugs, kept rows, their announcements, drawn ids. */
  ghost predicate DispatchInvariant(q0: map<Uuid, QueueRow>, p0: set<string>, subscribers: set<Uuid>,
                                    baseUrl: string, gen: (nat, Uuid) -> Uuid, now: Timestamp,
                                    done: seq<string>, queue: map<Uuid, QueueRow>, blogPosts: set<string>)
  {
    && blogPosts == p0 + (set s | s in done)
    && Keeps(q0, queue)
    && Announcements(Added(q0, queue), subscribers, baseUrl, blogPosts - p0, now)
    && forall id | id in queue && id !in q0 :: exists j, c :: 0 <= j < |done| && c in subscribers && id == gen(j, c)
  }

  lemma DispatchInvariantStart(q0: map<Uuid, QueueRow>, p0: set<string>, subscribers: set<Uuid>,
                               baseUrl: string, gen: (nat, Uuid) -> Uuid, now: Timestamp)
    ensures DispatchInvariant(q0, p0, subscribers, baseUrl, gen, now, [], q0, p0)
  {
    assert Added(q0, q0) == map[];
  }

  /** Processing one more file keeps the invariant, whether its slug is new or not. */
  lemma DispatchInvariantStep(q0: map<Uuid, QueueRow>, p0: set<string>, subscriptions: map<Uuid, Subscription>,
                              baseUrl: string, gen: (nat, Uuid) -> Uuid, now: Timestamp,
                              done: seq<string>, queue: map<Uuid, QueueRow>, blogPosts: set<string>,
                              slug: string, after: map<Uuid, QueueRow>)
    requires DispatchInvariant(q0, p0, Confirmed(subscriptions), baseUrl, gen, now, done, queue, blogPosts)
    requires var link := Link(baseUrl, slug);
      InsertAnnouncements(queue, subscriptions, blogPosts, SUBJECT, HtmlBody(link), TextBody(link), slug, gen, |done|, now) == Some(after)
    ensures DispatchInvariant(q0, p0, Confirmed(subscriptions), baseUrl, gen, now, done + [slug], after, blogPosts + {slug})
  {
    var subscribers := Confirmed(subscriptions);
    var done' := done + [slug];
    assert (set s | s in done') == (set s | s in done) + {slug};
    if slug in blogPosts {
      assert blogPosts + {slug} == blogPosts;
    } else {
      InsertAnnouncementsEffect(queue, subscriptions, blogPosts, baseUrl, slug, gen, |done|, now);
      AnnouncementsCompose(q0, queue, after, subscribers, baseUrl, blogPosts - p0, slug, now);
      assert (blogPosts - p0) + {slug} == (blogPosts + {slug}) - p0;
      forall id | id in after && id !in q0
        ensures exists j, c :: 0 <= j < |done'| && c in subscribers && id == gen(j, c)
      {
        if id !in queue {
          var c :| c in subscribers && id == gen(|done|, c);
          assert 0 <= |done| < |done'|;
        }
      }
    }
  }

  /** With nothing hindering, the statements for the next file cannot fail. */
  lemma UnhinderedStep(q0: map<Uuid, QueueRow>, p0: set<string>, subscribers: set<Uuid>,
                       baseUrl: string, gen: (nat, Uuid) -> Uuid, now: Timestamp,
                       done: seq<string>, queue: map<Uuid, QueueRow>, blogPosts: set<string>,
                       files: seq<string>, slugIsKey: bool)
    requires DispatchInvariant(q0, p0, subscribers, baseUrl, gen, now, done, queue, blogPosts)
    requires Unhindered(files, gen, slugIsKey, subscribers, q0, p0)
    requires |done| < |files| && forall j | 0 <= j < |done| :: done[j] == Slugs(files)[j]
    ensures FreshDraws(gen, |done|, subscribers, queue)
    ensures slugIsKey ==> Slugs(files)[|done|] !in blogPosts
  {
    var i := |done|;
    forall c | c in subscribers
      ensures gen(i, c) !in queue
    {
      assert gen(i, c) !in q0;
      assert forall j, d | 0 <= j < i && d in subscribers :: gen(i, c) != gen(j, d);
    }
    if slugIsKey {
      forall j | 0 <= j < i
        ensures done[j] != Slugs(files)[i]
      {
        assert Slugs(files)[j] != Slugs(files)[i];
      }
      assert Slugs(files)[i] !in p0;
    }
  }

  /**
   * One pass of the `for` loop: the slug, the link and bodies, the enqueue
   * statement and the registration of one file. `false` is a panic.
   */
  method EnqueuePost(tx: Transaction, file: string, i: nat, baseUrl: string, gen: (nat, Uuid) -> Uuid,
                     slugIsKey: bool, fault: DispatchFault, now: Timestamp,
                     ghost q0: map<Uuid, QueueRow>, ghost p0: set<string>, ghost done: seq<string>)
    returns (ok: bool, ghost slug: string)
    modifies tx`queue, tx`blogPosts
    requires |done| == i
    requires DispatchInvariant(q0, p0, Confirmed(tx.db.subscriptions), baseUrl, gen, now, done, tx.queue, tx.blogPosts)
    ensures ok ==> Slug(file) == Some(slug) && fault != EnqueueFails(i) && fault != RegisterFails(i)
    ensures ok ==> DispatchInvariant(q0, p0, Confirmed(tx.db.subscriptions), baseUrl, gen, now, done + [slug],
                                     tx.queue, tx.blogPosts)
    ensures (&& Slug(file).Some? && fault != EnqueueFails(i) && fault != RegisterFails(i)
             && FreshDraws(gen, i, Confirmed(tx.db.subscriptions), old(tx.queue))
             && (slugIsKey ==> Slug(file).value !in old(tx.blogPosts))) ==> ok
  {
    var postSlug;
    match Slug(file) {
      case None =>
        return false, [];
      case Some(s) =>
        postSlug := s;
    }
    slug := postSlug;
    var link := Link(baseUrl, postSlug);
    var subject := SUBJECT;
    var emailHtml := HtmlBody(link);
    var emailText := TextBody(link);
    if fault == EnqueueFails(i) {
      return false, slug;
    }
    var queue, posts := tx.queue, tx.blogPosts;
    var inserted := InsertAnnouncements(queue, tx.db.subscriptions, posts, subject, emailHtml, emailText,
                                        postSlug, gen, i, now);
    if inserted.None? {
      return false, slug;
    }
    DispatchInvariantStep(q0, p0, tx.db.subscriptions, baseUrl, gen, now, done, queue, posts, postSlug, inserted.value);
    tx.queue := inserted.value;
    if fault == RegisterFails(i) || (slugIsKey && postSlug in posts) {
      return false, slug;
    }
    tx.blogPosts := posts + {postSlug};
    ok := true;
  }

  /**
   * The `for` loop over the new files inside the transaction. `false` is a
   * panic; the transaction is then abandoned.
   */
  method EnqueueAnnouncements(tx: Transaction, files: seq<string>, baseUrl: string, gen: (nat, Uuid) -> Uuid,
                              slugIsKey: bool, fault: DispatchFault, now: Timestamp)
    returns (ok: bool)
    modifies tx`queue, tx`blogPosts
    ensures ok ==> AllHaveSlugs(files) && !FaultInLoop(fault, |files|)
    ensures ok ==> DispatchInvariant(old(tx.queue), old(tx.blogPosts), Confirmed(tx.db.subscriptions), baseUrl, gen, now,
                                     Slugs(files), tx.queue, tx.blogPosts)
    ensures (Unhindered(files, gen, slugIsKey, Confirmed(tx.db.subscriptions), old(tx.queue), old(tx.blogPosts))
             && !FaultInLoop(fault, |files|)) ==> ok
  {
    var subscribers := Confirmed(tx.db.subscriptions);
    ghost var q0, p0 := tx.queue, tx.blogPosts;
    ghost var unhindered := Unhindered(files, gen, slugIsKey, subscribers, q0, p0) && !FaultInLoop(fault, |files|);
    ghost var done: seq<string> := [];
    DispatchInvariantStart(q0, p0, subscribers, baseUrl, gen, now);
    var i := 0;
    while i < |files|
      invariant 0 <= i <= |files| && |done| == i
      invariant forall j | 0 <= j < i :: Slug(files[j]) == Some(done[j])
      invariant forall j | 0 <= j < i :: fault != EnqueueFails(j) && fault != RegisterFails(j)
      invariant DispatchInvariant(q0, p0, subscribers, baseUrl, gen, now, done, tx.queue, tx.blogPosts)
    {
      if unhindered {
        UnhinderedStep(q0, p0, subscribers, baseUrl, gen, now, done, tx.queue, tx.blogPosts, files, slugIsKey);
      }
      var posted;
      ghost var slug;
      posted, slug := EnqueuePost(tx, files[i], i, baseUrl, gen, slugIsKey, fault, now, q0, p0, done);
      if !posted {
        return false;
      }
      done := done + [slug];
      i := i + 1;
    }
    assert done == Slugs(files);
    ok := true;
  }

  /**
   * The dispatcher's `main` after the git call. `gen(i, c)` is the id
   * `gen_random_uuid()` gives the row of subscriber `c` for file `i`;
   * `slugIsKey` says whether `blog_posts` rejects a slug it already holds.
   */
  method DispatchNewPosts(db: Database, gitOutput: string, baseUrl: string, gen: (nat, Uuid) -> Uuid,
                          slugIsKey: bool, fault: DispatchFault, now: Timestamp)
    returns (outcome: DispatchOutcome)
    modifies db
    ensures db.subscriptions == old(db.subscriptions) && db.lockedByOthers == old(db.lockedByOthers)
    ensures outcome == NoNewPosts <==> NewFileList(gitOutput) == []
    ensures outcome != Committed ==> db.queue == old(db.queue) && db.blogPosts == old(db.blogPosts)
    ensures outcome == Committed ==>
      var files := NewFileList(gitOutput);
      && AllHaveSlugs(files)
      && db.blogPosts == old(db.blogPosts) + (set s | s in Slugs(files))
      && Keeps(old(db.queue), db.queue)
      && Announcements(Added(old(db.queue), db.queue), Confirmed(db.subscriptions), baseUrl,
                       db.blogPosts - old(db.blogPosts), now)
    ensures var files := NewFileList(gitOutput);
      files != [] && fault == NoFault
      && Unhindered(files, gen, slugIsKey, Confirmed(old(db.subscriptions)), old(db.queue), old(db.blogPosts))
      ==> outcome == Committed
  {
    var files := NewFileList(gitOutput);
    if files == [] {
      return NoNewPosts;
    }
    if fault == ConnectFails {
      return Errored;
    }
    var tx := new Transaction.Begin(db);
    var ok := EnqueueAnnouncements(tx, files, baseUrl, gen, slugIsKey, fault, now);
    if !ok {
      return Panicked;
    }
    if fault == CommitFails {
      return Errored;
    }
    tx.Commit();
    return Committed;
  }
}

=== FILE: email_delivery_queue.dfy ===
/**
 * The durable delivery queue: the `email_delivery_queue` table, the
 * `subscriptions` table it is joined with, and the four operations the rest
 * of the system uses on it (push, peek, pop, deprioritise).
 *
 * The database is a `Database` object holding the committed tables and the
 * set of queue rows that other, concurrent transactions hold locked. A
 * `Transaction` works on its own copy of the tables it writes and publishes
 * them on `Commit`; a transaction that is dropped without committing has no
 * effect, which is how Postgres treats a rolled-back transaction.
 */
module EmailDeliveryQueue {
  import opened Wrappers
  import opened Uuids

  /** Seconds since the Unix epoch (chrono's `DateTime<Utc>`, to the second). */
  type Timestamp = int

  /** One row of `email_delivery_queue`. */
  datatype QueueRow = QueueRow(
    subscriberId: Uuid,
    subject: string,
    emailHtml: string,
    emailText: string,
    createdAt: Timestamp,
    nRetries: int,
    sendAfter: Timestamp)

  /** One row of `subscriptions`, as far as the queue needs it. */
  datatype Subscription = Subscription(email: string, confirmed: bool)

  /**
   * `EmailDeliveryTask`: a queue row together with its id and the address
   * of its subscriber, as the inner join delivers it. The source names the
   * address field `email` in the struct and `recipient` where the worker
   * reads it; both are this field.
   */
  datatype EmailDeliveryTask = EmailDeliveryTask(
    id: Uuid,
    subscriberId: Uuid,
    email: string,
    subject: string,
    emailHtml: string,
    emailText: string,
    createdAt: Timestamp,
    nRetries: int,
    sendAfter: Timestamp)

  // ---------------------------------------------------------------------
  // Backoff arithmetic of deprioritise_task
  // ---------------------------------------------------------------------

  const BASE_RETRY_INTERVAL_SECS: nat := 60
  const U64_MAX: nat := 0xFFFF_FFFF_FFFF_FFFF
  const I64_MAX: nat := 0x7FFF_FFFF_FFFF_FFFF
  /** The largest argument `chrono::Duration::seconds` accepts without panicking. */
  const MAX_DURATION_SECS: nat := I64_MAX / 1000
  /**
   * The latest instant chrono can represent, +262143-12-31T23:59:59Z. The
   * value depends on the chrono release (later releases may stop a year
   * earlier, at 8_210_266_876_799); every bound proved below holds for
   * either value, since both lie between 60 * 2^36 + 4 * 10^12 and 60 * 2^37.
   */
  const MAX_UTC_TIMESTAMP: int := 8_210_298_412_799

  function Pow2(n: nat): (r: nat)
    ensures r >= 1
  {
    if n == 0 then 1 else 2 * Pow2(n - 1)
  }

  /** The retry delay for retry count `n`, in seconds: the base interval doubled `n` times. */
  function BackoffDelay(n: nat): (secs: nat)
    ensures secs >= BASE_RETRY_INTERVAL_SECS && secs % BASE_RETRY_INTERVAL_SECS == 0
  {
    BASE_RETRY_INTERVAL_SECS * Pow2(n)
  }

  /**
   * Whether the deferral instant for retry count `n` at `now` is computed
   * without overflow or panic. Each step of the computation has its own
   * limit: the cast of the count to an unsigned 32-bit value keeps it only
   * when it is non-negative; the power of two and the product with the base
   * interval must fit in an unsigned 64-bit value; the conversion to a
   * signed 64-bit value must not change it; chrono's duration constructor
   * accepts at most i64::MAX / 1000 seconds; and the sum with the current
   * instant must stay within chrono's range.
   */
  predicate SendAfterDefined(now: Timestamp, n: int)
  {
    && 0 <= n < 64
    && BackoffDelay(n) <= U64_MAX
    && BackoffDelay(n) <= I64_MAX
    && BackoffDelay(n) <= MAX_DURATION_SECS
    && now + BackoffDelay(n) <= MAX_UTC_TIMESTAMP
  }

  /** The first delay is the base interval, and each retry doubles it. */
  lemma BackoffDoubles(n: nat)
    ensures BackoffDelay(0) == BASE_RETRY_INTERVAL_SECS
    ensures BackoffDelay(n + 1) == 2 * BackoffDelay(n)
  {
  }

  /** The delay grows strictly with the retry count. */
  lemma {:induction false} BackoffStrictlyIncreasing(m: nat, n: nat)
    requires m < n
    ensures BackoffDelay(m) < BackoffDelay(n)
    decreases n - m
  {
    if m + 1 < n {
      BackoffStrictlyIncreasing(m + 1, n);
    }
  }

  lemma {:induction false} Pow2Add(a: nat, b: nat)
    ensures Pow2(a + b) == Pow2(a) * Pow2(b)
    decreases a
  {
    if a > 0 {
      Pow2Add(a - 1, b);
    }
  }

  lemma Pow2Values()
    ensures Pow2(36) == 0x10_0000_0000
    ensures Pow2(48) == 0x1_0000_0000_0000
  {
    assert Pow2(4) == 16 by {
      assert Pow2(1) == 2;
      assert Pow2(2) == 4;
      assert Pow2(3) == 8;
    }
    Pow2Add(4, 4);
    Pow2Add(8, 8);
    Pow2Add(16, 16);
    Pow2Add(32, 4);
    Pow2Add(32, 16);
  }

  /**
   * The unsigned 64-bit product of the base interval and the power of two
   * fits exactly for retry counts up to 58. A release build would wrap it
   * silently only from 59 on (the power itself only from 64 on); debug and
   * release builds differ only at counts the worker never reaches.
   */
  lemma U64ProductRange(n: nat)
    ensures BackoffDelay(n) <= U64_MAX <==> n <= 58
  {
    Pow2Values();
    assert Pow2(4) == 16 by {
      assert Pow2(1) == 2;
      assert Pow2(2) == 4;
      assert Pow2(3) == 8;
    }
    assert Pow2(2) == 4;
    assert Pow2(3) == 8;
    Pow2Add(4, 4);
    Pow2Add(48, 8);
    Pow2Add(56, 2);
    Pow2Add(56, 3);
    if n < 58 {
      BackoffStrictlyIncreasing(n, 58);
    }
    if n > 59 {
      BackoffStrictlyIncreasing(59, n);
    }
  }

  /**
   * The range of retry counts the arithmetic survives: never beyond 47 at
   * any instant (the duration constructor rejects 60 * 2^48 seconds and
   * more); from the Unix epoch on never beyond 36 (60 * 2^37 seconds
   * already passes chrono's last instant); and always up to 36 for any
   * instant before the year 128000. So for every instant from 1970 to then
   * the counts that survive are exactly 0 to 36.
   */
  lemma SendAfterDefinedRange(now: Timestamp, n: int)
    ensures SendAfterDefined(now, n) ==> 0 <= n <= 47
    ensures now >= 0 && SendAfterDefined(now, n) ==> n <= 36
    ensures 0 <= n <= 36 && now <= 4_000_000_000_000 ==> SendAfterDefined(now, n)
    ensures 0 <= now <= 4_000_000_000_000 ==> (SendAfterDefined(now, n) <==> 0 <= n <= 36)
  {
    Pow2Values();
    if n >= 48 {
      if n > 48 {
        BackoffStrictlyIncreasing(48, n);
      }
      assert BackoffDelay(n) > MAX_DURATION_SECS;
    }
    if n >= 37 {
      Pow2Add(36, 1);
      if n > 37 {
        BackoffStrictlyIncreasing(37, n);
      }
      assert BackoffDelay(n) > MAX_UTC_TIMESTAMP;
    }
    if 0 <= n < 36 {
      BackoffStrictlyIncreasing(n, 36);
    }
  }

  // ---------------------------------------------------------------------
  // The tables as values
  // ---------------------------------------------------------------------

  /**
   * The row `push_task` inserts. Only id, subscriber_id, subject, email_html
   * and email_text are written; created_at and send_after take the insert
   * time and n_retries takes 0 (the column defaults).
   */
  function NewRow(subscriberId: Uuid, subject: string, html: string, text: string, now: Timestamp): (row: QueueRow)
    ensures row.nRetries == 0 && row.createdAt == now && row.sendAfter == row.createdAt
  {
    QueueRow(subscriberId, subject, html, text, now, 0, now)
  }

  /**
   * The rows `peek_task` may return: those whose subscriber still exists
   * (the inner join) and that no other transaction holds (`SKIP LOCKED`).
   * There is no condition on `send_after` and no order.
   */
  function Claimable(queue: map<Uuid, QueueRow>, subscriptions: map<Uuid, Subscription>, lockedByOthers: set<Uuid>)
    : (ids: set<Uuid>)
    ensures ids <= queue.Keys && ids !! lockedByOthers
    ensures forall id | id in ids :: queue[id].subscriberId in subscriptions
  {
    set id | id in queue && queue[id].subscriberId in subscriptions && id !in lockedByOthers
  }

  /** The joined result row for a claimable id. */
  function Joined(queue: map<Uuid, QueueRow>, subscriptions: map<Uuid, Subscription>, id: Uuid): (t: EmailDeliveryTask)
    requires id in queue && queue[id].subscriberId in subscriptions
  {
    var row := queue[id];
    EmailDeliveryTask(id, row.subscriberId, subscriptions[row.subscriberId].email,
      row.subject, row.emailHtml, row.emailText, row.createdAt, row.nRetries, row.sendAfter)
  }

  /**
   * The table after `deprioritise_task(id, n)` at `now`: the stored retry
   * count goes up by one and `send_after` becomes now plus the delay for the
   * caller's `n`; an absent id matches no row.
   */
  function Deferred(queue: map<Uuid, QueueRow>, id: Uuid, n: int, now: Timestamp): (q: map<Uuid, QueueRow>)
    requires SendAfterDefined(now, n)
    ensures q.Keys == queue.Keys
    ensures id in queue ==> q[id].nRetries == queue[id].nRetries + 1 && q[id].sendAfter > now
  {
    if id in queue
    then queue[id := queue[id].(nRetries := queue[id].nRetries + 1, sendAfter := now + BackoffDelay(n))]
    else queue
  }

  /** A deferral changes the two columns of the one row and nothing else. */
  lemma DeferredChangesOnlyRetryColumns(queue: map<Uuid, QueueRow>, id: Uuid, n: int, now: Timestamp)
    requires SendAfterDefined(now, n)
    ensures var q := Deferred(queue, id, n, now);
      && q.Keys == queue.Keys
      && (forall other | other in queue && other != id :: q[other] == queue[other])
      && (id in queue ==>
            && q[id].nRetries == queue[id].nRetries + 1
            && q[id].sendAfter == now + BackoffDelay(n)
            && q[id].sendAfter > now
            && q[id].(nRetries := queue[id].nRetries, sendAfter := queue[id].sendAfter) == queue[id])
  {
  }

  /**
   * Nothing gates a deferred row: it is claimable again straight away,
   * although its `send_after` lies in the future.
   */
  lemma DeferredRowStillClaimable(queue: map<Uuid, QueueRow>, subscriptions: map<Uuid, Subscription>,
                                  lockedByOthers: set<Uuid>, id: Uuid, n: int, now: Timestamp)
    requires SendAfterDefined(now, n)
    requires id in Claimable(queue, subscriptions, lockedByOthers)
    ensures var q := Deferred(queue, id, n, now);
      id in Claimable(q, subscriptions, lockedByOthers) && q[id].sendAfter > now
  {
  }

  /** Deleting a row makes exactly that row unclaimable and leaves the others as they were. */
  lemma ClaimableAfterPop(queue: map<Uuid, QueueRow>, subscriptions: map<Uuid, Subscription>,
                          lockedByOthers: set<Uuid>, id: Uuid)
    ensures Claimable(queue - {id}, subscriptions, lockedByOthers) == Claimable(queue, subscriptions, lockedByOthers) - {id}
  {
  }

  /** A deferral changes no row's claimability: the claim ignores both columns it writes. */
  lemma ClaimableAfterDeferral(queue: map<Uuid, QueueRow>, subscriptions: map<Uuid, Subscription>,
                               lockedByOthers: set<Uuid>, id: Uuid, n: int, now: Timestamp)
    requires SendAfterDefined(now, n)
    ensures Claimable(Deferred(queue, id, n, now), subscriptions, lockedByOthers) == Claimable(queue, subscriptions, lockedByOthers)
  {
  }

  // ---------------------------------------------------------------------
  // The database and its transactions
  // ---------------------------------------------------------------------

  /** The committed state of the tables the core touches. */
  class Database {
    var queue: map<Uuid, QueueRow>
    var subscriptions: map<Uuid, Subscription>
    var blogPosts: set<string>
    /** Queue rows currently locked by other transactions. */
    var lockedByOthers: set<Uuid>

    constructor (queue: map<Uuid, QueueRow>, subscriptions: map<Uuid, Subscription>,
                 blogPosts: set<string>, lockedByOthers: set<Uuid>)
      ensures this.queue == queue && this.subscriptions == subscriptions
      ensures this.blogPosts == blogPosts && this.lockedByOthers == lockedByOthers
    {
      this.queue := queue;
      this.subscriptions := subscriptions;
      this.blogPosts := blogPosts;
      this.lockedByOthers := lockedByOthers;
    }
  }

  /** An open transaction (`begin()`): what it sees, what it wrote, what it holds. */
  class Transaction {
    const db: Database
    var queue: map<Uuid, QueueRow>
    var blogPosts: set<string>
    /** Queue rows this transaction holds `FOR UPDATE`. */
    var locks: set<Uuid>

    constructor Begin(db: Database)
      ensures this.db == db && queue == db.queue && blogPosts == db.blogPosts && locks == {}
    {
      this.db := db;
      queue := db.queue;
      blogPosts := db.blogPosts;
      locks := {};
    }

    /** `commit()`: publishes the writes and releases the row locks. */
    method Commit()
      modifies db, this`locks
      ensures db.queue == queue && db.blogPosts == blogPosts
      ensures db.subscriptions == old(db.subscriptions) && db.lockedByOthers == old(db.lockedByOthers)
      ensures locks == {}
    {
      db.queue := queue;
      db.blogPosts := blogPosts;
      locks := {};
    }
  }

  // ---------------------------------------------------------------------
  // The queue operations, each run on a transaction
  // ---------------------------------------------------------------------

  /**
   * `push_task`: inserts one row under the freshly drawn `id`
   * (`Uuid::new_v4()`). An id already in the table violates the primary key
   * and the insert fails with nothing changed. `fails` stands for any other
   * database error of the round-trip (a lost connection, a foreign key the
   * row breaks), which the statement also reports with nothing changed.
   */
  method PushTask(tx: Transaction, id: Uuid, subscriberId: Uuid, subject: string,
                  htmlContent: string, textContent: string, now: Timestamp, fails: bool)
    returns (ok: bool)
    modifies tx`queue
    ensures ok <==> !fails && id !in old(tx.queue)
    ensures ok ==> tx.queue == old(tx.queue)[id := NewRow(subscriberId, subject, htmlContent, textContent, now)]
    ensures ok ==> |tx.queue| == |old(tx.queue)| + 1
    ensures !ok ==> tx.queue == old(tx.queue)
  {
    if fails || id in tx.queue {
      return false;
    }
    tx.queue := tx.queue[id := NewRow(subscriberId, subject, htmlContent, textContent, now)];
    ok := true;
  }

  /**
   * `peek_task`: returns some claimable row, joined with its subscriber's
   * address, and locks it for the rest of the transaction; `None` when no
   * row is claimable. Which row is returned is the database's choice.
   */
  method PeekTask(tx: Transaction) returns (task: Option<EmailDeliveryTask>)
    modifies tx`locks
    ensures var claimable := Claimable(tx.queue, tx.db.subscriptions, tx.db.lockedByOthers);
      && (task.None? <==> claimable == {})
      && (task.Some? ==> task.value.id in claimable
                         && task.value == Joined(tx.queue, tx.db.subscriptions, task.value.id))
    ensures task.Some? ==>
      && task.value.id in tx.queue && task.value.id !in tx.db.lockedByOthers
      && task.value.subscriberId == tx.queue[task.value.id].subscriberId
      && task.value.subscriberId in tx.db.subscriptions
      && task.value.email == tx.db.subscriptions[task.value.subscriberId].email
    ensures tx.locks == if task.Some? then old(tx.locks) + {task.value.id} else old(tx.locks)
  {
    var claimable := Claimable(tx.queue, tx.db.subscriptions, tx.db.lockedByOthers);
    if claimable == {} {
      return None;
    }
    var id :| id in claimable;
    task := Some(Joined(tx.queue, tx.db.subscriptions, id));
    tx.locks := tx.locks + {id};
  }

  /** `pop_task`: deletes the row with `taskId`; an absent id deletes nothing. */
  method PopTask(tx: Transaction, taskId: Uuid)
    modifies tx`queue
    ensures tx.queue == old(tx.queue) - {taskId}
    ensures taskId !in tx.queue
    ensures forall id | id in old(tx.queue) && id != taskId :: id in tx.queue && tx.queue[id] == old(tx.queue)[id]
  {
    tx.queue := tx.queue - {taskId};
  }

  /**
   * `deprioritise_task`: bumps the stored retry count and moves `send_after`
   * to `now` plus the delay for the caller's `nRetries`. The caller must
   * pass a count the delay arithmetic survives (otherwise the source
   * overflows or panics).
   */
  method DeprioritiseTask(tx: Transaction, taskId: Uuid, nRetries: int, now: Timestamp)
    requires SendAfterDefined(now, nRetries)
    modifies tx`queue
    ensures tx.queue == Deferred(old(tx.queue), taskId, nRetries, now)
  {
    var delaySecs := BASE_RETRY_INTERVAL_SECS * Pow2(nRetries);
    var sendAfter := now + delaySecs;
    if taskId in tx.queue {
      var row := tx.queue[taskId];
      tx.queue := tx.queue[taskId := row.(nRetries := row.nRetries + 1, sendAfter := sendAfter)];
    }
  }
}

=== FILE: email_template.dfy ===
/**
 * The footers appended to outgoing mail: an unsubscribe link built from the
 * site's base URL (read from `APP_BASE_URL` in the source, a parameter here)
 * and the subscriber's id, wrapped around the HTML and the plain-text body.
 */
module EmailTemplate {
  import opened Wrappers
  import opened Uuids
  import opened RustStr

  const UNSUBSCRIBE_PATH := "/subscriptions/unsubscribe?id="

  /**
   * `unsubscribe_link`: the site's unsubscribe route with the subscriber's
   * id as its query; the id reads back from the query.
   */
  function UnsubscribeLink(baseUrl: string, subscriberId: Uuid): (link: string)
    ensures |link| == |baseUrl| + |UNSUBSCRIBE_PATH| + 36
    ensures link[..|baseUrl| + |UNSUBSCRIBE_PATH|] == baseUrl + UNSUBSCRIBE_PATH
    ensures ParseUuid(link[|baseUrl| + |UNSUBSCRIBE_PATH|..]) == Some(subscriberId)
  {
    var route, query := baseUrl + UNSUBSCRIBE_PATH, UuidText(subscriberId);
    UuidTextRoundTrip(subscriberId);
    assert (route + query)[..|route|] == route;
    assert (route + query)[|route|..] == query;
    route + query
  }

  /** The subscriber id the unsubscribe route reads off a link of this site, if it is one. */
  function SubscriberIdOfLink(baseUrl: string, link: string): (id: Option<Uuid>)
  {
    match StripPrefix(link, baseUrl + UNSUBSCRIBE_PATH)
    case Some(query) => ParseUuid(query)
    case None => None
  }

  /** Following the unsubscribe link unsubscribes exactly the subscriber it was made for. */
  lemma UnsubscribeLinkRoundTrip(baseUrl: string, subscriberId: Uuid)
    ensures SubscriberIdOfLink(baseUrl, UnsubscribeLink(baseUrl, subscriberId)) == Some(subscriberId)
  {
    StripPrefixIff(UnsubscribeLink(baseUrl, subscriberId), baseUrl + UNSUBSCRIBE_PATH, UuidText(subscriberId));
    UuidTextRoundTrip(subscriberId);
  }

  // The fixed parts of the HTML version (a raw string literal, so every
  // line break and indentation is part of the text).
  const HTML_OPEN := "\n        <div style=\"font-family: sans-serif; max-width: 600px; margin: 0 auto;\">\n            "
  const HTML_GAP := "\n    \n            "
  const HTML_RULE := "<hr style=\"border: none; border-top: 1px solid #ddd; margin: 20px 0;\"/>"
  const HTML_NOTICE := "\n    \n            <footer style=\"font-size: 12px; color: #666;\">\n                <p>\n                    You're receiving this because you subscribed to Joe Hasson's Blog.<br/>\n                    "
  const HTML_ANCHOR_OPEN := "<a href=\""
  /** Everything of the footer before the link: the rule, the notice and the anchor's opening up to `href="`. */
  const HTML_FOOTER_HEAD := HTML_GAP + HTML_RULE + HTML_NOTICE + HTML_ANCHOR_OPEN
  const HTML_CLOSE := "\" style=\"color: #666;\">Unsubscribe</a>\n                </p>\n            </footer>\n        </div>"

  // The fixed parts of the text version (`\` continuations drop the
  // indentation of the next source line).
  const TEXT_RULE := "-------------------------------------------"
  const TEXT_NOTICE := "You're receiving this because you subscribed to Joe Hasson's Blog.\n"
  const TEXT_SEPARATOR := "\n\n" + TEXT_RULE + "\n" + TEXT_NOTICE

  function HtmlFooter(link: string): (footer: string)
  {
    HTML_FOOTER_HEAD + link + HTML_CLOSE
  }

  function UnsubscribeLine(link: string): (line: string)
  {
    "Unsubscribe: " + link + "\n"
  }

  function TextFooter(link: string): (footer: string)
  {
    TEXT_SEPARATOR + UnsubscribeLine(link)
  }

  /** `html_version`: the body wrapped in the page markup and the footer; the body reads back unchanged. */
  function HtmlVersion(baseUrl: string, subscriberId: Uuid, htmlContent: string): (html: string)
    ensures HtmlContentOf(baseUrl, subscriberId, html) == Some(htmlContent)
  {
    var footer := HtmlFooter(UnsubscribeLink(baseUrl, subscriberId));
    StripBothIff(HTML_OPEN + htmlContent + footer, HTML_OPEN, footer, htmlContent);
    HTML_OPEN + htmlContent + footer
  }

  /** `text_version`: the body followed by the footer; the body reads back unchanged. */
  function TextVersion(baseUrl: string, subscriberId: Uuid, textContent: string): (text: string)
    ensures TextContentOf(baseUrl, subscriberId, text) == Some(textContent)
  {
    var footer := TextFooter(UnsubscribeLink(baseUrl, subscriberId));
    StripSuffixIff(textContent + footer, footer, textContent);
    textContent + footer
  }

  /** The body a reader sees above the footer of a text mail to this subscriber. */
  function TextContentOf(baseUrl: string, subscriberId: Uuid, text: string): (content: Option<string>)
  {
    StripSuffix(text, TextFooter(UnsubscribeLink(baseUrl, subscriberId)))
  }

  /** The body a reader sees above the footer of an HTML mail to this subscriber. */
  function HtmlContentOf(baseUrl: string, subscriberId: Uuid, html: string): (content: Option<string>)
  {
    match StripPrefix(html, HTML_OPEN)
    case Some(rest) => StripSuffix(rest, HtmlFooter(UnsubscribeLink(baseUrl, subscriberId)))
    case None => None
  }

  /**
   * The text version is the body, a blank line, the 43-dash rule, the
   * notice and the unsubscribe line, each ending in a line break.
   */
  lemma TextVersionShape(baseUrl: string, subscriberId: Uuid, textContent: string)
    ensures var link := UnsubscribeLink(baseUrl, subscriberId);
      var t := TextVersion(baseUrl, subscriberId, textContent);
      var line := |textContent| + |TEXT_SEPARATOR|;
      && t == textContent + TEXT_SEPARATOR + UnsubscribeLine(link)
      && t[..|textContent|] == textContent
      && t[|textContent|..line] == TEXT_SEPARATOR
      && t[line..] == "Unsubscribe: " + link + "\n"
      && t[line + 13..|t| - 1] == link
  {
    var link := UnsubscribeLink(baseUrl, subscriberId);
    var t := TextVersion(baseUrl, subscriberId, textContent);
    ConcatSlices(textContent, TEXT_SEPARATOR, UnsubscribeLine(link));
    Regroup(textContent, TEXT_SEPARATOR, "Unsubscribe: ", link, "\n");
    ConcatSlices(textContent + TEXT_SEPARATOR + "Unsubscribe: ", link, "\n");
  }

  lemma Regroup(a: string, b: string, c: string, d: string, e: string)
    ensures a + (b + (c + d + e)) == (a + b + c) + d + e
    ensures |a + b + c| == |a| + |b| + |c|
  {
  }

  /**
   * In the HTML version the body stands verbatim right after the opening
   * `<div>` and before the footer (which starts with the `<hr/>` rule), and
   * the link is the anchor's href.
   */
  lemma HtmlVersionShape(baseUrl: string, subscriberId: Uuid, htmlContent: string)
    ensures var link := UnsubscribeLink(baseUrl, subscriberId);
      var h := HtmlVersion(baseUrl, subscriberId, htmlContent);
      var start := |HTML_OPEN|;
      var footer := start + |htmlContent|;
      var href := footer + |HTML_FOOTER_HEAD|;
      && h[..start] == HTML_OPEN
      && h[start..footer] == htmlContent
      && h[footer..href] == HTML_FOOTER_HEAD
      && h[href..href + |link|] == link
      && h[href + |link|..] == HTML_CLOSE
  {
    var link := UnsubscribeLink(baseUrl, subscriberId);
    FiveSlices(HTML_OPEN, htmlContent, HTML_FOOTER_HEAD, link, HTML_CLOSE);
  }

  /** The five parts of a concatenation are recovered by slicing at their lengths. */
  lemma FiveSlices(a: string, b: string, c: string, d: string, e: string)
    ensures var x := a + b + (c + d + e);
      && x[..|a|] == a
      && x[|a|..|a| + |b|] == b
      && x[|a| + |b|..|a| + |b| + |c|] == c
      && x[|a| + |b| + |c|..|a| + |b| + |c| + |d|] == d
      && x[|a| + |b| + |c| + |d|..] == e
  {
  }

  /** Both versions for one subscriber carry the same unsubscribe link, which leads back to that subscriber. */
  lemma VersionsShareLink(baseUrl: string, subscriberId: Uuid, htmlContent: string, textContent: string)
    ensures var link := UnsubscribeLink(baseUrl, subscriberId);
      var h := HtmlVersion(baseUrl, subscriberId, htmlContent);
      var t := TextVersion(baseUrl, subscriberId, textContent);
      var href := |HTML_OPEN| + |htmlContent| + |HTML_FOOTER_HEAD|;
      && h[href..href + |link|] == link
      && t[|textContent| + |TEXT_SEPARATOR| + 13..|t| - 1] == link
      && SubscriberIdOfLink(baseUrl, link) == Some(subscriberId)
  {
    HtmlVersionShape(baseUrl, subscriberId, htmlContent);
    TextVersionShape(baseUrl, subscriberId, textContent);
    UnsubscribeLinkRoundTrip(baseUrl, subscriberId);
  }
}

=== FILE: rust_str.dfy ===
/**
 * The few `str` operations of Rust's standard library the dispatcher relies
 * on: `split` on a character, `strip_prefix` and `strip_suffix`.
 */
module RustStr {
  import opened Wrappers

  /** Number of occurrences of `c` in `s`. */
  function Count(s: string, c: char): (n: nat)
    ensures n <= |s|
  {
    if s == [] then 0 else (if s[0] == c then 1 else 0) + Count(s[1..], c)
  }

  /** Position of the first `c` in `s`. */
  function IndexOf(s: string, c: char): (i: nat)
    requires c in s
    ensures i < |s| && s[i] == c && c !in s[..i]
  {
    if s[0] == c then 0 else 1 + IndexOf(s[1..], c)
  }

  /**
   * `s.split(c)`: the pieces between occurrences of `c`; there is always
   * one more piece than there are separators (so "" gives [""]).
   */
  function Split(s: string, c: char): (pieces: seq<string>)
    ensures |pieces| >= 1
    decreases |s|
  {
    if c !in s then [s] else var i := IndexOf(s, c); [s[..i]] + Split(s[i + 1..], c)
  }

  /** Each string followed by the separator, all concatenated. */
  function Terminated(pieces: seq<string>, c: char): (joined: string)
  {
    if pieces == [] then [] else pieces[0] + [c] + Terminated(pieces[1..], c)
  }

  function StripPrefix(s: string, prefix: string): (r: Option<string>)
  {
    if prefix <= s then Some(s[|prefix|..]) else None
  }

  function StripSuffix(s: string, suffix: string): (r: Option<string>)
  {
    if |suffix| <= |s| && s[|s| - |suffix|..] == suffix then Some(s[..|s| - |suffix|]) else None
  }

  lemma StripPrefixIff(s: string, prefix: string, rest: string)
    ensures StripPrefix(s, prefix) == Some(rest) <==> s == prefix + rest
  {
    if s == prefix + rest {
      assert prefix <= s;
      assert s[|prefix|..] == rest;
    }
  }

  lemma StripSuffixIff(s: string, suffix: string, rest: string)
    ensures StripSuffix(s, suffix) == Some(rest) <==> s == rest + suffix
  {
    if s == rest + suffix {
      assert s[|s| - |suffix|..] == suffix;
      assert s[..|s| - |suffix|] == rest;
    }
  }

  /** Stripping a prefix and then a suffix leaves `mid` exactly when the string is prefix, `mid`, suffix. */
  lemma StripBothIff(s: string, prefix: string, suffix: string, mid: string)
    ensures (match StripPrefix(s, prefix) case None => None case Some(rest) => StripSuffix(rest, suffix)) == Some(mid)
            <==> s == prefix + mid + suffix
  {
    if prefix <= s {
      StripPrefixIff(s, prefix, s[|prefix|..]);
      StripSuffixIff(s[|prefix|..], suffix, mid);
    }
    if s == prefix + mid + suffix {
      assert s == prefix + (mid + suffix);
      StripPrefixIff(s, prefix, mid + suffix);
      StripSuffixIff(mid + suffix, suffix, mid);
    }
  }

  lemma {:induction false} CountSplit(s: string, c: char, i: nat)
    requires i < |s| && s[i] == c
    ensures Count(s, c) == Count(s[..i], c) + 1 + Count(s[i + 1..], c)
    decreases i
  {
    if i > 0 {
      assert s[1..][..i - 1] == s[1..i];
      assert s[1..][i..] == s[i + 1..];
      CountSplit(s[1..], c, i - 1);
      assert s[..i][1..] == s[1..i];
    }
  }

  lemma {:induction false} CountAbsent(s: string, c: char)
    requires c !in s
    ensures Count(s, c) == 0
  {
    if s != [] {
      assert c !in s[1..];
      CountAbsent(s[1..], c);
    }
  }

  /** No piece of a split contains the separator. */
  lemma {:induction false} SplitPiecesFree(s: string, c: char)
    ensures var p := Split(s, c); forall k | 0 <= k < |p| :: c !in p[k]
    decreases |s|
  {
    if c in s {
      var i := IndexOf(s, c);
      SplitPiecesFree(s[i + 1..], c);
      assert Split(s, c) == [s[..i]] + Split(s[i + 1..], c);
    }
  }

  /** A split has one piece per separator plus one. */
  lemma {:induction false} SplitLength(s: string, c: char)
    ensures |Split(s, c)| == Count(s, c) + 1
    decreases |s|
  {
    if c !in s {
      CountAbsent(s, c);
    } else {
      var i := IndexOf(s, c);
      SplitLength(s[i + 1..], c);
      CountAbsent(s[..i], c);
      CountSplit(s, c, i);
      assert |Split(s, c)| == 1 + |Split(s[i + 1..], c)|;
    }
  }

  lemma TerminatedCons(x: string, rest: seq<string>, c: char)
    ensures Terminated([x] + rest, c) == x + [c] + Terminated(rest, c)
  {
    assert ([x] + rest)[1..] == rest;
  }

  /** Rebuilding commutes with putting one more piece and its separator in front. */
  lemma RebuildCons(head: string, tail: string, rest: seq<string>, c: char)
    requires |rest| >= 1 && Terminated(rest[..|rest| - 1], c) + rest[|rest| - 1] == tail
    ensures var p := [head] + rest; Terminated(p[..|p| - 1], c) + p[|p| - 1] == head + [c] + tail
  {
    var p := [head] + rest;
    var init := rest[..|rest| - 1];
    assert p[..|p| - 1] == [head] + init;
    TerminatedCons(head, init, c);
  }

  /** The pieces but the last, each re-terminated, followed by the last piece rebuild the input. */
  lemma {:induction false} SplitRebuilds(s: string, c: char)
    ensures var p := Split(s, c); Terminated(p[..|p| - 1], c) + p[|p| - 1] == s
    decreases |s|
  {
    if c in s {
      var i := IndexOf(s, c);
      var head, tail := s[..i], s[i + 1..];
      SplitRebuilds(tail, c);
      RebuildCons(head, tail, Split(tail, c), c);
      assert Split(s, c) == [head] + Split(tail, c);
      assert s == head + [c] + tail;
    }
  }

  /**
   * The pieces of a split: none contains the separator, there is one per
   * separator plus one, and the pieces but the last, each re-terminated,
   * followed by the last piece rebuild the input.
   */
  lemma SplitProperties(s: string, c: char)
    ensures var p := Split(s, c);
      && (forall k | 0 <= k < |p| :: c !in p[k])
      && |p| == Count(s, c) + 1
      && Terminated(p[..|p| - 1], c) + p[|p| - 1] == s
  {
    SplitPiecesFree(s, c);
    SplitLength(s, c);
    SplitRebuilds(s, c);
  }

  /** The three parts of a concatenation are recovered by slicing at their lengths. */
  lemma ConcatSlices(a: string, b: string, c: string)
    ensures a + (b + c) == a + b + c
    ensures (a + b + c)[..|a|] == a
    ensures (a + b + c)[|a|..|a| + |b|] == b
    ensures (a + b + c)[|a| + |b|..] == c
  {
  }
}

=== FILE: uuids.dfy ===
/**
 * Identifiers of queue rows and subscribers, as the `uuid` crate holds them
 * (sixteen bytes), with their hyphenated lower-case text form (what `{}`
 * prints, 8-4-4-4-12 hex digits) and a parser for the hyphenated form
 * only. The `uuid` crate's own parser also accepts the simple, braced and
 * URN forms; those are not modelled.
 */
module Uuids {
  import opened Wrappers

  type Byte = b: int | 0 <= b < 256

  /** A 128-bit identifier, as its sixteen bytes in order. */
  type Uuid = s: seq<Byte> | |s| == 16 witness [0, 0, 0, 0, 0, 0, 0, 0, 0, 0, 0, 0, 0, 0, 0, 0]

  /** The lower-case hex digit of a nibble. */
  function HexDigit(d: int): (c: char)
    requires 0 <= d < 16
  {
    if d < 10 then ('0' as int + d) as char else ('a' as int + d - 10) as char
  }

  /** The value of a hex digit in either case, if `c` is one. */
  function DigitValue(c: char): (r: Option<int>)
    ensures r.Some? ==> 0 <= r.value < 16
  {
    if '0' <= c <= '9' then Some(c as int - '0' as int)
    else if 'a' <= c <= 'f' then Some(c as int - 'a' as int + 10)
    else if 'A' <= c <= 'F' then Some(c as int - 'A' as int + 10)
    else None
  }

  lemma DigitValueOfHexDigit(d: int)
    requires 0 <= d < 16
    ensures DigitValue(HexDigit(d)) == Some(d)
  {
  }

  /** Two hex digits per byte, most significant nibble first. */
  function BytesHex(bs: seq<Byte>): (s: string)
    ensures |s| == 2 * |bs|
  {
    if bs == [] then [] else [HexDigit(bs[0] / 16), HexDigit(bs[0] % 16)] + BytesHex(bs[1..])
  }

  /** Reads pairs of hex digits as bytes; an odd length or a non-digit is rejected. */
  function ParseBytesHex(s: string): (bs: Option<seq<Byte>>)
    ensures bs.Some? ==> 2 * |bs.value| == |s|
  {
    if s == [] then Some([])
    else if |s| == 1 then None
    else match (DigitValue(s[0]), DigitValue(s[1]), ParseBytesHex(s[2..]))
      case (Some(hi), Some(lo), Some(rest)) => Some([hi * 16 + lo] + rest)
      case _ => None
  }

  lemma {:induction false} BytesHexAppend(a: seq<Byte>, b: seq<Byte>)
    ensures BytesHex(a + b) == BytesHex(a) + BytesHex(b)
  {
    if a == [] {
      assert a + b == b;
    } else {
      assert (a + b)[1..] == a[1..] + b;
      BytesHexAppend(a[1..], b);
    }
  }

  lemma {:induction false} ParseBytesHexRoundTrip(bs: seq<Byte>)
    ensures ParseBytesHex(BytesHex(bs)) == Some(bs)
  {
    if bs != [] {
      var s := BytesHex(bs);
      DigitValueOfHexDigit(bs[0] / 16);
      DigitValueOfHexDigit(bs[0] % 16);
      assert s[2..] == BytesHex(bs[1..]);
      ParseBytesHexRoundTrip(bs[1..]);
      assert [bs[0] / 16 * 16 + bs[0] % 16] + bs[1..] == bs;
    }
  }

  /** The hyphenated form `xxxxxxxx-xxxx-xxxx-xxxx-xxxxxxxxxxxx`. */
  function UuidText(u: Uuid): (s: string)
    ensures |s| == 36
  {
    BytesHex(u[..4]) + "-" + BytesHex(u[4..6]) + "-" + BytesHex(u[6..8]) + "-"
      + BytesHex(u[8..10]) + "-" + BytesHex(u[10..])
  }

  /** Parses the hyphenated form (either case); anything else is rejected. */
  function ParseUuid(s: string): (u: Option<Uuid>)
    ensures u.Some? ==> |s| == 36
  {
    if |s| != 36 || s[8] != '-' || s[13] != '-' || s[18] != '-' || s[23] != '-' then None
    else match ParseBytesHex(s[..8] + s[9..13] + s[14..18] + s[19..23] + s[24..])
      case Some(bs) => if |bs| == 16 then Some(bs) else None
      case None => None
  }

  /** Printing an identifier and parsing the text back gives the identifier. */
  lemma UuidTextRoundTrip(u: Uuid)
    ensures ParseUuid(UuidText(u)) == Some(u)
  {
    var s := UuidText(u);
    var g1, g2, g3, g4, g5 := BytesHex(u[..4]), BytesHex(u[4..6]), BytesHex(u[6..8]), BytesHex(u[8..10]), BytesHex(u[10..]);
    assert s == g1 + "-" + g2 + "-" + g3 + "-" + g4 + "-" + g5;
    assert s[..8] == g1;
    assert s[9..13] == g2;
    assert s[14..18] == g3;
    assert s[19..23] == g4;
    assert s[24..] == g5;
    BytesHexAppend(u[..4], u[4..6]);
    BytesHexAppend(u[..4] + u[4..6], u[6..8]);
    BytesHexAppend(u[..4] + u[4..6] + u[6..8], u[8..10]);
    BytesHexAppend(u[..4] + u[4..6] + u[6..8] + u[8..10], u[10..]);
    assert u[..4] + u[4..6] + u[6..8] + u[8..10] + u[10..] == u;
    ParseBytesHexRoundTrip(u);
  }

  /** Distinct identifiers print differently. */
  lemma UuidTextInjective(u: Uuid, v: Uuid)
    requires UuidText(u) == UuidText(v)
    ensures u == v
  {
    UuidTextRoundTrip(u);
    UuidTextRoundTrip(v);
  }
}

=== FILE: worker.dfy ===
/**
 * The delivery worker: one transactional attempt (`try_execute_task`) and
 * the loop that repeats attempts forever, sleeping according to the
 * attempt's outcome (`worker`).
 *
 * What the environment decides is passed in: the clock, whether the mail
 * transport accepts the message, which database round-trip (if any) fails,
 * and `validEmail`, the acceptance test of `SubscriberEmail::parse`. Which
 * claimable row `peek_task` hands out is the database's choice; the methods
 * return it so that their contracts can speak about it.
 */
module DeliveryWorker {
  import opened Wrappers
  import opened Uuids
  import opened EmailDeliveryQueue

  /** `TryTaskError`: why an attempt did not deliver a message. */
  datatype TryTaskError = CorruptedData | DatabaseError | EmailClientError | NoPendingTask

  /** What one attempt comes to: `Ok(())`, `Err(e)`, or a panic inside it. */
  datatype AttemptResult = Delivered | Failed(error: TryTaskError) | Panicked

  /** The database round-trips of an attempt, each a `?` that may fail. */
  datatype DbStep = Begin | Peek | Deprioritise | Pop | Commit

  /** The environment of one attempt. */
  datatype AttemptInput = AttemptInput(now: Timestamp, sendSucceeds: bool, failingStep: Option<DbStep>)

  predicate Fails(input: AttemptInput, step: DbStep)
  {
    input.failingStep == Some(step)
  }

  /**
   * Whether `claimed` is a possible answer of `peek_task` in this attempt:
   * nothing when the attempt fails before the query returns, otherwise
   * `None` exactly when no row is claimable and else one claimable row
   * joined with its subscriber.
   */
  predicate ClaimConsistent(queue: map<Uuid, QueueRow>, subscriptions: map<Uuid, Subscription>,
                            lockedByOthers: set<Uuid>, claimed: Option<EmailDeliveryTask>, input: AttemptInput)
  {
    if Fails(input, Begin) || Fails(input, Peek) then claimed.None?
    else
      var claimable := Claimable(queue, subscriptions, lockedByOthers);
      && (claimed.None? <==> claimable == {})
      && (claimed.Some? ==> claimed.value.id in claimable
                            && claimed.value == Joined(queue, subscriptions, claimed.value.id))
  }

  /**
   * The failure path shared by a bad address and a failed send: defer the
   * claimed row and commit. The delay arithmetic panics for retry counts it
   * cannot handle; the unwinding drops the transaction, so nothing changes.
   */
  function DeferAndCommit(queue: map<Uuid, QueueRow>, task: EmailDeliveryTask, input: AttemptInput,
                          error: TryTaskError): (r: (AttemptResult, map<Uuid, QueueRow>))
    ensures r.0 == Panicked <==> !SendAfterDefined(input.now, task.nRetries)
    ensures r.0 != Failed(error) ==> r.1 == queue
  {
    if !SendAfterDefined(input.now, task.nRetries) then (Panicked, queue)
    else if Fails(input, Deprioritise) || Fails(input, Commit) then (Failed(DatabaseError), queue)
    else (Failed(error), Deferred(queue, task.id, task.nRetries, input.now))
  }

  /**
   * The outcome and the committed queue table of one attempt that claimed
   * `claimed`. A failed round-trip or a panic leaves the table as it was,
   * and no row other than the claimed one is ever touched.
   */
  function Attempt(queue: map<Uuid, QueueRow>, claimed: Option<EmailDeliveryTask>,
                   validEmail: string -> bool, input: AttemptInput): (r: (AttemptResult, map<Uuid, QueueRow>))
    ensures r.0 in {Panicked, Failed(DatabaseError), Failed(NoPendingTask)} ==> r.1 == queue
    ensures forall id | claimed.None? || id != claimed.value.id ::
              (id in r.1 <==> id in queue) && (id in queue ==> r.1[id] == queue[id])
  {
    if Fails(input, Begin) || Fails(input, Peek) then (Failed(DatabaseError), queue)
    else match claimed
      case None => (Failed(NoPendingTask), queue)
      case Some(task) =>
        if !validEmail(task.email) then DeferAndCommit(queue, task, input, CorruptedData)
        else if !input.sendSucceeds then DeferAndCommit(queue, task, input, EmailClientError)
        else if Fails(input, Pop) || Fails(input, Commit) then (Failed(DatabaseError), queue)
        else (Delivered, queue - {task.id})
  }

  /** `try_execute_task`: one attempt in one transaction. */
  method TryExecuteTask(db: Database, validEmail: string -> bool, input: AttemptInput)
    returns (result: AttemptResult, claimed: Option<EmailDeliveryTask>)
    modifies db
    ensures db.subscriptions == old(db.subscriptions) && db.lockedByOthers == old(db.lockedByOthers)
    ensures db.blogPosts == old(db.blogPosts)
    ensures ClaimConsistent(old(db.queue), db.subscriptions, db.lockedByOthers, claimed, input)
    ensures (result, db.queue) == Attempt(old(db.queue), claimed, validEmail, input)
  {
    claimed := None;
    if Fails(input, Begin) {
      return Failed(DatabaseError), claimed;
    }
    var tx := new Transaction.Begin(db);
    if Fails(input, Peek) {
      return Failed(DatabaseError), claimed;
    }
    claimed := PeekTask(tx);
    if claimed.None? {
      return Failed(NoPendingTask), claimed;
    }
    var task := claimed.value;

    if !validEmail(task.email) {
      if !SendAfterDefined(input.now, task.nRetries) {
        return Panicked, claimed;
      }
      if Fails(input, Deprioritise) {
        return Failed(DatabaseError), claimed;
      }
      DeprioritiseTask(tx, task.id, task.nRetries, input.now);
      if Fails(input, Commit) {
        return Failed(DatabaseError), claimed;
      }
      tx.Commit();
      return Failed(CorruptedData), claimed;
    }

    if !input.sendSucceeds {
      if !SendAfterDefined(input.now, task.nRetries) {
        return Panicked, claimed;
      }
      if Fails(input, Deprioritise) {
        return Failed(DatabaseError), claimed;
      }
      DeprioritiseTask(tx, task.id, task.nRetries, input.now);
      if Fails(input, Commit) {
        return Failed(DatabaseError), claimed;
      }
      tx.Commit();
      return Failed(EmailClientError), claimed;
    }

    if Fails(input, Pop) {
      return Failed(DatabaseError), claimed;
    }
    PopTask(tx, task.id);
    if Fails(input, Commit) {
      return Failed(DatabaseError), claimed;
    }
    tx.Commit();
    result := Delivered;
  }

  // ---------------------------------------------------------------------
  // What single attempts do
  // ---------------------------------------------------------------------

  /** With nothing claimable the attempt reports NoPendingTask and changes nothing. */
  lemma NothingClaimable(queue: map<Uuid, QueueRow>, subscriptions: map<Uuid, Subscription>,
                         lockedByOthers: set<Uuid>, claimed: Option<EmailDeliveryTask>,
                         validEmail: string -> bool, input: AttemptInput)
    requires !Fails(input, Begin) && !Fails(input, Peek)
    requires Claimable(queue, subscriptions, lockedByOthers) == {}
    requires ClaimConsistent(queue, subscriptions, lockedByOthers, claimed, input)
    ensures Attempt(queue, claimed, validEmail, input) == (Failed(NoPendingTask), queue)
  {
  }

  /**
   * An unparseable address defers the claimed row and reports
   * CorruptedData: the row stays, with one more retry.
   */
  lemma UnparseableAddressDefers(queue: map<Uuid, QueueRow>, task: EmailDeliveryTask,
                                 validEmail: string -> bool, input: AttemptInput)
    requires task.id in queue && task.nRetries == queue[task.id].nRetries
    requires !Fails(input, Begin) && !Fails(input, Peek) && !Fails(input, Deprioritise) && !Fails(input, Commit)
    requires !validEmail(task.email)
    requires SendAfterDefined(input.now, task.nRetries)
    ensures var (r, q) := Attempt(queue, Some(task), validEmail, input);
      && r == Failed(CorruptedData)
      && q == Deferred(queue, task.id, task.nRetries, input.now)
      && task.id in q && q[task.id].nRetries == task.nRetries + 1
      && q[task.id].sendAfter == input.now + BackoffDelay(task.nRetries)
  {
  }

  /** A failed send defers the claimed row and reports EmailClientError; the row is not deleted. */
  lemma FailedSendDefers(queue: map<Uuid, QueueRow>, task: EmailDeliveryTask,
                         validEmail: string -> bool, input: AttemptInput)
    requires task.id in queue && task.nRetries == queue[task.id].nRetries
    requires !Fails(input, Begin) && !Fails(input, Peek) && !Fails(input, Deprioritise) && !Fails(input, Commit)
    requires validEmail(task.email) && !input.sendSucceeds
    requires SendAfterDefined(input.now, task.nRetries)
    ensures var (r, q) := Attempt(queue, Some(task), validEmail, input);
      && r == Failed(EmailClientError)
      && q == Deferred(queue, task.id, task.nRetries, input.now)
      && task.id in q && q[task.id].nRetries == task.nRetries + 1
      && q[task.id].sendAfter == input.now + BackoffDelay(task.nRetries)
  {
  }

  /** A row is deleted only by a successful send, and a successful send that commits deletes it. */
  lemma DeliveredIffSentAndCommitted(queue: map<Uuid, QueueRow>, task: EmailDeliveryTask,
                                     validEmail: string -> bool, input: AttemptInput)
    requires task.id in queue
    ensures var (r, q) := Attempt(queue, Some(task), validEmail, input);
      && (r == Delivered <==> && validEmail(task.email) && input.sendSucceeds
                              && !Fails(input, Begin) && !Fails(input, Peek)
                              && !Fails(input, Pop) && !Fails(input, Commit))
      && (r == Delivered ==> q == queue - {task.id})
      && (r != Delivered ==> task.id in q)
  {
  }

  /**
   * At-least-once delivery: when the message went out but deleting the row
   * or committing failed, the row is still there to be sent again.
   */
  lemma SentButNotCommitted(queue: map<Uuid, QueueRow>, task: EmailDeliveryTask,
                            validEmail: string -> bool, input: AttemptInput)
    requires task.id in queue && validEmail(task.email) && input.sendSucceeds
    requires Fails(input, Pop) || Fails(input, Commit)
    ensures Attempt(queue, Some(task), validEmail, input) == (Failed(DatabaseError), queue)
  {
  }

  // ---------------------------------------------------------------------
  // The worker loop
  // ---------------------------------------------------------------------

  const IDLE_SLEEP_SECS: nat := 1
  const ERROR_SLEEP_SECS: nat := 10

  /** What the loop does after an attempt: go on after sleeping, or stop. */
  datatype LoopStep = Continue(sleepSecs: nat) | Stop

  /**
   * The dispatch of `worker`: success and corrupted data go straight on, no
   * pending task sleeps 1 s, database and mail errors sleep 10 s; no
   * returned outcome stops the loop, only a panic ends the worker.
   */
  function NextStep(r: AttemptResult): (s: LoopStep)
    ensures s.Stop? <==> r.Panicked?
    ensures s == Continue(0) <==> r.Delivered? || r == Failed(CorruptedData)
    ensures s == Continue(1) <==> r == Failed(NoPendingTask)
    ensures s == Continue(10) <==> r == Failed(DatabaseError) || r == Failed(EmailClientError)
  {
    match r
    case Delivered => Continue(0)
    case Panicked => Stop
    case Failed(e) =>
      match e
      case CorruptedData => Continue(0)
      case NoPendingTask => Continue(IDLE_SLEEP_SECS)
      case DatabaseError => Continue(ERROR_SLEEP_SECS)
      case EmailClientError => Continue(ERROR_SLEEP_SECS)
  }

  /** The outcomes and the final queue table of a sequence of attempts. */
  function Replay(queue: map<Uuid, QueueRow>, claims: seq<Option<EmailDeliveryTask>>,
                  validEmail: string -> bool, inputs: seq<AttemptInput>): (r: (seq<AttemptResult>, map<Uuid, QueueRow>))
    requires |claims| == |inputs|
    ensures |r.0| == |inputs|
    decreases |inputs|
  {
    if inputs == [] then ([], queue)
    else
      var n := |inputs| - 1;
      var (results, q) := Replay(queue, claims[..n], validEmail, inputs[..n]);
      var (result, q') := Attempt(q, claims[n], validEmail, inputs[n]);
      (results + [result], q')
  }

  /** Every claim of a sequence of attempts is possible in the state it was made in. */
  predicate ClaimsConsistent(queue: map<Uuid, QueueRow>, subscriptions: map<Uuid, Subscription>,
                             lockedByOthers: set<Uuid>, claims: seq<Option<EmailDeliveryTask>>,
                             validEmail: string -> bool, inputs: seq<AttemptInput>)
    requires |claims| == |inputs|
    decreases |inputs|
  {
    inputs == [] ||
      var n := |inputs| - 1;
      && ClaimsConsistent(queue, subscriptions, lockedByOthers, claims[..n], validEmail, inputs[..n])
      && ClaimConsistent(Replay(queue, claims[..n], validEmail, inputs[..n]).1,
                         subscriptions, lockedByOthers, claims[n], inputs[n])
  }

  /**
   * `worker`, run for as many iterations as `inputs` describes: it attempts
   * once per input and sleeps as NextStep says, and it ends early only when
   * an attempt panics. `sleeps` holds the sleep after each attempt that did
   * not panic.
   */
  method RunWorker(db: Database, validEmail: string -> bool, inputs: seq<AttemptInput>)
    returns (results: seq<AttemptResult>, claims: seq<Option<EmailDeliveryTask>>, sleeps: seq<nat>)
    modifies db
    ensures db.subscriptions == old(db.subscriptions) && db.lockedByOthers == old(db.lockedByOthers)
    ensures db.blogPosts == old(db.blogPosts)
    ensures |results| == |claims| <= |inputs|
    ensures |results| < |inputs| ==> |results| > 0 && results[|results| - 1] == Panicked
    ensures forall i | 0 <= i < |results| - 1 :: results[i] != Panicked
    ensures |sleeps| == if Panicked in results then |results| - 1 else |results|
    ensures forall i | 0 <= i < |sleeps| :: NextStep(results[i]) == Continue(sleeps[i])
    ensures ClaimsConsistent(old(db.queue), db.subscriptions, db.lockedByOthers, claims, validEmail, inputs[..|results|])
    ensures (results, db.queue) == Replay(old(db.queue), claims, validEmail, inputs[..|results|])
  {
    results, claims, sleeps := [], [], [];
    var stopped := false;
    var i := 0;
    while i < |inputs| && !stopped
      invariant 0 <= i <= |inputs|
      invariant |results| == |claims| == i
      invariant stopped <==> i > 0 && results[i - 1] == Panicked
      invariant forall j | 0 <= j < i - 1 :: results[j] != Panicked
      invariant |sleeps| == if stopped then i - 1 else i
      invariant forall j | 0 <= j < |sleeps| :: NextStep(results[j]) == Continue(sleeps[j])
      invariant db.subscriptions == old(db.subscriptions) && db.lockedByOthers == old(db.lockedByOthers)
      invariant db.blogPosts == old(db.blogPosts)
      invariant ClaimsConsistent(old(db.queue), db.subscriptions, db.lockedByOthers, claims, validEmail, inputs[..i])
      invariant (results, db.queue) == Replay(old(db.queue), claims, validEmail, inputs[..i])
      decreases |inputs| - i
    {
      var result, claimed := TryExecuteTask(db, validEmail, inputs[i]);
      assert inputs[..i + 1][..i] == inputs[..i];
      assert (claims + [claimed])[..i] == claims;
      results, claims := results + [result], claims + [claimed];
      match NextStep(result) {
        case Stop => stopped := true;
        case Continue(secs) => sleeps := sleeps + [secs];
      }
      i := i + 1;
    }
  }

  // ---------------------------------------------------------------------
  // Consequence: a row with an unparseable address stops the worker
  // ---------------------------------------------------------------------

  /** Every attempt of the run reads a clock at or after the Unix epoch. */
  predicate ClockAfterEpoch(inputs: seq<AttemptInput>)
  {
    forall i | 0 <= i < |inputs| :: inputs[i].now >= 0
  }

  /**
   * Because the claim has no `send_after` condition and CorruptedData does
   * not sleep, a queue whose only row has an address that never parses has
   * that row claimed and deferred again and again, one retry each time,
   * until the delay arithmetic panics. Whatever the clock, no run of
   * attempts without a panic takes the count past 48; with a clock after
   * 1970 it cannot take it past 37, so the 38th attempt on a fresh row
   * panics.
   */
  lemma {:induction false} UnparseableRowPanics(queue: map<Uuid, QueueRow>, subscriptions: map<Uuid, Subscription>,
                                                lockedByOthers: set<Uuid>, claims: seq<Option<EmailDeliveryTask>>,
                                                validEmail: string -> bool, inputs: seq<AttemptInput>, id: Uuid)
    requires queue.Keys == {id} && id !in lockedByOthers && queue[id].subscriberId in subscriptions
    requires !validEmail(subscriptions[queue[id].subscriberId].email)
    requires |claims| == |inputs|
    requires ClaimsConsistent(queue, subscriptions, lockedByOthers, claims, validEmail, inputs)
    requires forall i | 0 <= i < |inputs| :: inputs[i].failingStep.None?
    ensures var (results, q) := Replay(queue, claims, validEmail, inputs);
      && (Panicked !in results ==>
            && q.Keys == {id}
            && q[id].subscriberId == queue[id].subscriberId
            && q[id].nRetries == queue[id].nRetries + |inputs|
            && (|inputs| == 0 || queue[id].nRetries + |inputs| <= 48)
            && (|inputs| == 0 || !ClockAfterEpoch(inputs) || queue[id].nRetries + |inputs| <= 37)
            && forall i | 0 <= i < |results| :: results[i] == Failed(CorruptedData))
      && (|inputs| > 0 && queue[id].nRetries + |inputs| > 48 ==> Panicked in results)
      && (|inputs| > 0 && ClockAfterEpoch(inputs) && queue[id].nRetries + |inputs| > 37 ==> Panicked in results)
    decreases |inputs|
  {
    if inputs != [] {
      var n := |inputs| - 1;
      assert forall i | 0 <= i < n :: inputs[..n][i].failingStep.None?;
      assert ClockAfterEpoch(inputs) ==> ClockAfterEpoch(inputs[..n]);
      UnparseableRowPanics(queue, subscriptions, lockedByOthers, claims[..n], validEmail, inputs[..n], id);
      var (results, q) := Replay(queue, claims[..n], validEmail, inputs[..n]);
      var (result, q') := Attempt(q, claims[n], validEmail, inputs[n]);
      assert Replay(queue, claims, validEmail, inputs) == (results + [result], q');
      if Panicked !in results {
        assert Claimable(q, subscriptions, lockedByOthers) == {id};
        assert claims[n] == Some(Joined(q, subscriptions, id));
        if result != Panicked {
          SendAfterDefinedRange(inputs[n].now, q[id].nRetries);
        }
      }
    }
  }
}

=== FILE: wrappers.dfy ===
/** The optional-value type used throughout the model. */
module Wrappers {

  datatype Option<+T> = None | Some(value: T)
}
